=== FILE: README.md ===
# collab-draw whiteboard core, modelled in Dafny

collab-draw is a shared whiteboard. Each browser keeps a fabric.js canvas.
Local edits go out over socket.io as `shape:draw`, `shape:modify`,
`selection:update`, `canvas:undo` and `canvas:clear` events. A small
server relays each event to every other connection. This project models
the event handlers on both sides and proves what they do to the canvas,
the snapshot history, the echo map and the outgoing messages.

Modules, one per source file of the core, plus two shared ones:

- `Values`: the JavaScript values the handlers pass around: strings, numbers, booleans, `null`/`undefined`, arrays and plain records. It also defines truthiness, `||`, member access, `===`, `includes` and `String(v)`.
- `Fabric`: a fabric object as a heap object (`FabricObject`) with a value view (`Shape`: type, id, property map, `evented`). It also gives `new fabric.X(options)`, `obj.set(props)`, `obj.toObject(["id"])`, the canvas with its object list, active object, background and listener table (`on`/`off`), and `loadFromJSON`.
- `CanvasUtils`: `canvasUtils.js`.
- `SelectionOrder`: the default `Array.prototype.sort` used on selection ids, with the `JSON.stringify` comparison of the sorted lists.
- `CanvasEvents`: `useCanvasEvents.jsx`.
- `CanvasSocket`: `useCanvasSocket.jsx`.
- `SocketManager`: the client's `manager/SocketManager.js`.
- `CanvasHistory`: `useCanvasHistory.jsx`.
- `DrawingCanvas`: `components/DrawingCanvas.jsx`.
- `Relay`: the server's `server/SocketManager.js`.
- `ClientBoard`: `client/src/app/components/DrawingBoard.jsx`.
- `Whiteboard`: the stand-alone `src/app/components/DrawingBoard.jsx`.

External services become parameters:

- Fresh ids from `uuid` are a parameter (`uuid`, or `uuids` for a group).
- `Date.now()` is `now`.
- A canvas snapshot `JSON.stringify(canvas.toJSON())` is an opaque string argument.
- What fabric rebuilds from a snapshot is a `Decoded` argument.
- The user's answer to the clear dialog is `confirmed`.
- Whether the server's forwarding emit throws is `fails`.
- Messages a socket emits are recorded in its `sent` list. The server's emits go to an `outbox`.

The model follows the code where it differs from the intended design:

- The echo map read by `modifyFromSocket` is the one in `useCanvasSocket.jsx`. Nothing in that hook writes it. The map stamped by outgoing modifications is a different one, in `useCanvasEvents.jsx`. So `SocketHook.lastModified` starts empty and `ModifyFromSocket` leaves it as it is.
- `useCanvasSocket.jsx` calls `initializeSocket` with eight arguments but the function declares six. The selection-handler slot therefore receives `roomId`, a string, and the `typeof === "function"` guard never dispatches `selection:update`. `InitializeConnection` proves this.
- A pen shape received over the socket gets its whole props record as its id. The lookup finds it again through `obj.id.id`.
- The server relays exactly four events. It has no handler for `join-room` or `shape:modify` and no notion of rooms: every other connection receives every forward. Its `canvas:clear` handler reports a failure with the same message as undo.
- `undoCanvas` loads the entry it pops, not the one below it.
- The rectangle drag in both `useCanvasEvents.jsx` and `DrawingCanvas.jsx` moves `left`/`top` only while the pointer is left of or above the start. It never moves them back. Dragged left past the start and then back to the right, the rectangle keeps the first step's left edge. It then covers the wrong span, as `DragBackKeepsLeft` proves. Only the first step is proved to span the start point and the pointer (`DragSpans`, `RectangleSpansDrag`).
- In the mouse-up handler of `useCanvasEvents.jsx`, assigning to `activeObject`, a `const`, throws as soon as an id has to be assigned.
- The text tool calls `new fabric.TextBox`, which fabric does not define, so it throws in both mouse-down handlers.
- The client `DrawingBoard` undo repaints by reading a `style` field that its stored strokes do not have. It throws whenever a stroke remains.

## Model

| member | source | states |
|---|---|---|
| Fabric.FromOptions | collab-draw/client/src/app/hooks/useCanvasSocket.jsx:24-48 | a constructed object has the given type, takes its id from the options and keeps every other option as a property, adding none |
| Fabric.SetProps | collab-draw/client/src/app/hooks/useCanvasSocket.jsx:95 | `obj.set(props)` overwrites exactly the fields present in `props` and keeps every other property, the id and `evented` otherwise |
| Fabric.FabricObject.Set | collab-draw/client/src/app/hooks/useCanvasSocket.jsx:95 | `obj.set(props)` on the object in place leaves its view equal to `SetProps` of the old view |
| Fabric.FromOptionsToObject | collab-draw/client/src/app/hooks/useCanvasEvents.jsx:40 | rebuilding an object from `toObject(["id"])` gives back the same object, with `evented` at its default |
| Fabric.OffThenOnKeepsHandlers | collab-draw/client/src/app/components/DrawingCanvas.jsx:91-102 | `off` then `on` of a registered handler leaves every event with the same handlers, up to order |
| Fabric.Canvas.Add | collab-draw/client/src/app/hooks/useCanvasSocket.jsx:54 | `canvas.add` appends exactly one object at the end and changes nothing else |
| Fabric.Canvas.Clear | collab-draw/client/src/app/manager/SocketManager.js:106 | `canvas.clear` empties the objects and active selection and keeps the listeners |
| Fabric.Canvas.LoadFromJSON | collab-draw/client/src/app/manager/SocketManager.js:93-95 | a load replaces objects and background by what the snapshot decodes to and records the listener table in force during the load |
| CanvasUtils.AssignedId | collab-draw/client/src/app/utils/canvasUtils.js:6-8 | the id after `assignId` is truthy and is either the old id or the fresh one |
| CanvasUtils.AssignedIdKeepsExisting | collab-draw/client/src/app/utils/canvasUtils.js:6 | a truthy id is kept; a falsy id is replaced by the fresh one |
| CanvasUtils.AssignedIdIdempotent | collab-draw/client/src/app/utils/canvasUtils.js:6-9 | a second `assignId`, whatever its fresh id, changes nothing |
| CanvasUtils.AssignId | collab-draw/client/src/app/utils/canvasUtils.js:5-10 | returns the very object given (null passes through); the object's id is defaulted in place and nothing else changes |
| CanvasUtils.SelectionStyle | collab-draw/client/src/app/utils/canvasUtils.js:16-33 | the six style fields are set; `cornerSize` is 10 for a group and 8 for a single object |
| CanvasUtils.StylesDifferOnlyInCornerSize | collab-draw/client/src/app/utils/canvasUtils.js:16-33 | the group and single styles agree on every field but `cornerSize`, where they differ |
| CanvasUtils.ApplySelectionStyles | collab-draw/client/src/app/utils/canvasUtils.js:13-35 | a missing object is left alone; otherwise the object gets the style for its kind (group or single) and keeps all else |
| SelectionOrder.LexLeTotal | collab-draw/client/src/app/hooks/useCanvasEvents.jsx:84-85 | the string order the default sort uses relates any two strings |
| SelectionOrder.LexLeAntisymmetric | collab-draw/client/src/app/hooks/useCanvasEvents.jsx:84-85 | two strings each at most the other are equal |
| SelectionOrder.LexLeTransitive | collab-draw/client/src/app/hooks/useCanvasEvents.jsx:84-85 | the string order is transitive |
| SelectionOrder.LexLeReflexive | collab-draw/client/src/app/hooks/useCanvasEvents.jsx:84-85 | every string is at most itself |
| SelectionOrder.Insert | collab-draw/client/src/app/hooks/useCanvasEvents.jsx:84-85 | inserting into a sorted list keeps it sorted and adds exactly that element |
| SelectionOrder.Sort | collab-draw/client/src/app/hooks/useCanvasEvents.jsx:84-85 | the stable sort by text gives a sorted permutation of its input |
| SelectionOrder.SortedUnique | collab-draw/client/src/app/hooks/useCanvasEvents.jsx:84-87 | two sorted permutations of a list whose elements have distinct texts are equal |
| SelectionOrder.SortedSameHead | collab-draw/client/src/app/hooks/useCanvasEvents.jsx:84-87 | two non-empty sorted permutations of a list with distinct texts start with the same element |
| SelectionOrder.SortedTail | collab-draw/client/src/app/hooks/useCanvasEvents.jsx:84-85 | the tail of a sorted list is sorted and holds exactly the other elements |
| SelectionOrder.EqualTextsKeepOrder | collab-draw/client/src/app/hooks/useCanvasEvents.jsx:84-85 | elements with the same text keep their order: the sort is stable |
| SelectionOrder.SortIds | collab-draw/client/src/app/hooks/useCanvasEvents.jsx:84-85 | `[...ids].sort()` is sorted by `String(v)` and a permutation of the ids |
| SelectionOrder.DifferentIdsChangeSelection | collab-draw/client/src/app/hooks/useCanvasEvents.jsx:84-87 | lists with different elements always compare as changed, with JSON texts taken to differ exactly when the lists do |
| SelectionOrder.SelectionChangedIffDifferentIds | collab-draw/client/src/app/hooks/useCanvasEvents.jsx:84-87 | for string ids, the sorted-and-stringified comparison reports a change exactly when the id multisets differ |
| SelectionOrder.RecordsKeepTheirOrder | collab-draw/client/src/app/hooks/useCanvasEvents.jsx:84-85 | ids that are records all read `[object Object]`, so the sort leaves them in place |
| CanvasEvents.WireTypeRoundTrip | collab-draw/client/src/app/hooks/useCanvasEvents.jsx:41-45 | `rect` goes out as `rectangle` and `path` as `pen`; the receiver rebuilds exactly the four drawable types, and drops every other type unless it is sent under a wire name |
| CanvasEvents.DrawRoundTrip | collab-draw/client/src/app/hooks/useCanvasEvents.jsx:39-51 | a drawn rect, circle, line or pen sent as `shape:draw` is rebuilt by the receiver with the same type and properties; a pen's id becomes the sent record, which the lookup still matches |
| CanvasEvents.ModifyConverges | collab-draw/client/src/app/hooks/useCanvasEvents.jsx:234-246 | applying a sent object's full property record to the peer's copy makes it equal to the sender's object, keeping the peer's `evented` |
| CanvasEvents.TruthyIds | collab-draw/client/src/app/hooks/useCanvasEvents.jsx:75-78 | the group's id list holds only truthy ids, no more of them than there are members |
| CanvasEvents.TruthyIdsCount | collab-draw/client/src/app/hooks/useCanvasEvents.jsx:75-78 | each truthy id occurs in the list exactly as often as among the members' ids |
| CanvasEvents.TruthyIdsMembers | collab-draw/client/src/app/hooks/useCanvasEvents.jsx:75-78 | an id is listed exactly when it is truthy and some member has it |
| CanvasEvents.TruthyIdsAppend | collab-draw/client/src/app/hooks/useCanvasEvents.jsx:75-78 | the list keeps member order: the ids of two joined member lists are the first's followed by the second's |
| CanvasEvents.TruthyIdsSnoc | collab-draw/client/src/app/hooks/useCanvasEvents.jsx:75-78 | one more member adds its id at the end exactly when that id is truthy |
| CanvasEvents.SelectionIds | collab-draw/client/src/app/hooks/useCanvasEvents.jsx:71-82 | no selection gives `[]`, a group its members' truthy ids, a single object `[id]` when its id is truthy and `[]` otherwise; every listed id is truthy |
| CanvasEvents.Stamp | collab-draw/client/src/app/hooks/useCanvasEvents.jsx:253-278 | stamping a list of ids maps each of them to `now` and keeps every other entry |
| CanvasEvents.StampAppend | collab-draw/client/src/app/hooks/useCanvasEvents.jsx:253-278 | stamping one more id is one more map update |
| CanvasEvents.DragProps | collab-draw/client/src/app/hooks/useCanvasEvents.jsx:167-179 | a drag sets width and height to the absolute differences and moves left/top to the pointer only when it lies before the start; no other property changes |
| CanvasEvents.DragSpans | collab-draw/client/src/app/hooks/useCanvasEvents.jsx:167-179 | a rectangle whose corner is still at the start point, as after a mouse-down, spans exactly from the smaller to the larger coordinate on each axis after the next drag step |
| CanvasEvents.DragBackKeepsLeft | collab-draw/client/src/app/hooks/useCanvasEvents.jsx:171-176 | dragged left of the start and then back to its right, the rectangle keeps the left edge of the first step, with the width of the second: it no longer spans the start point and the pointer |
| CanvasEvents.EventsHook.constructor | collab-draw/client/src/app/hooks/useCanvasEvents.jsx:18-22 | the hook starts not drawing, with no active object or start point and an empty echo map |
| CanvasEvents.EventsHook.HandleObjectAdded | collab-draw/client/src/app/hooks/useCanvasEvents.jsx:25-55 | with a canvas, the object gets an id before history saves it and before `shape:draw` carries it, with the wire type and a truthy id; it emits only when sockets are enabled and a socket exists; the socket's connection and bindings are kept |
| CanvasEvents.EventsHook.HandleSelectionChange | collab-draw/client/src/app/hooks/useCanvasEvents.jsx:58-95 | the active object gets the selection style; with the select tool and a socket, the ids go to the change test; otherwise nothing is sent; the socket's connection and bindings are kept |
| CanvasEvents.EventsHook.SendSelection | collab-draw/client/src/app/hooks/useCanvasEvents.jsx:84-92 | a changed selection sends the sorted ids once and becomes current; an unchanged one sends nothing; afterwards the same selection never counts as changed |
| CanvasEvents.EventsHook.HandleObjectModification | collab-draw/client/src/app/hooks/useCanvasEvents.jsx:227-287 | without sockets, a socket or a target nothing happens; otherwise a single object is given an id, stamped and sent once, and a multi-selection has every member given an id, stamped and sent in member order, and the selection's own view is kept; the hook's other state and the socket's connection and bindings are kept |
| CanvasEvents.EventsHook.SendTarget | collab-draw/client/src/app/hooks/useCanvasEvents.jsx:230-286 | a single object takes the single path and a multi-selection the group path, keeping the selection's own view; the echo map returned is the given one stamped for the modified ids, which the handler stores back; the socket's connection and bindings are kept |
| CanvasEvents.EventsHook.SendModification | collab-draw/client/src/app/hooks/useCanvasEvents.jsx:234-247 | the object gets an id; the echo map returned is the given one with that id mapped to `now`; exactly one `shape:modify` carrying that id and the object's record is sent; the socket's connection and bindings are kept |
| CanvasEvents.EventsHook.SendGroupModification | collab-draw/client/src/app/hooks/useCanvasEvents.jsx:249-286 | every member gets an id; the echo map returned is the one passed in with every member id stamped `now`, which the handler stores back; one `shape:modify` per member is sent, in member order; the socket's connection and bindings are kept |
| CanvasEvents.EventsHook.ModifyMember | collab-draw/client/src/app/hooks/useCanvasEvents.jsx:253-285 | one member step takes the echo map stamped for the members before it to the map stamped for them and this member, and extends the sent messages by exactly this member's message; the socket's connection and bindings are kept |
| CanvasEvents.EventsHook.HandleMouseDown | collab-draw/client/src/app/hooks/useCanvasEvents.jsx:102-161 | with a canvas the start point is the pointer; a shape tool adds one zero-size shape with a fresh id that becomes the hook's active object while drawing, leaving the canvas's own selection, background and listeners as they were; the text tool throws |
| CanvasEvents.EventsHook.HandleMouseMove | collab-draw/client/src/app/hooks/useCanvasEvents.jsx:163-194 | while drawing, a rectangle follows the drag, a circle takes the given radius around the start, a line's end moves to the pointer; otherwise nothing changes |
| CanvasEvents.EventsHook.HandleMouseUp | collab-draw/client/src/app/hooks/useCanvasEvents.jsx:196-224 | `shape:draw` goes out only for a shape tool with an active object and a socket; the handler throws exactly when that object has no id; otherwise it drops the active object and stops drawing; the socket's connection and bindings are kept |
| CanvasEvents.EventsHook.HandlePathCreated | collab-draw/client/src/app/hooks/useCanvasEvents.jsx:290-304 | a created path gets an id, and with sockets on it is sent as a `pen` drawing; the socket's connection and bindings are kept |
| CanvasSocket.EchoWindowBounds | collab-draw/client/src/app/hooks/useCanvasSocket.jsx:75-81 | a modify is an echo exactly when it comes less than 1000 ms after the stamp; at exactly 1000 ms it applies; unstamped ids always apply |
| CanvasSocket.FirstMatch | collab-draw/client/src/app/hooks/useCanvasSocket.jsx:83-85 | the lookup returns the first object whose id, or whose id's `id`, equals the wanted id, and none when there is no such object |
| CanvasSocket.ConstructorOptions | collab-draw/client/src/app/hooks/useCanvasSocket.jsx:24-48 | the options passed to the constructor keep the received props and id; a line takes `x1`..`y2` from the props; a pen's `path` is the props' path when truthy and `[]` otherwise |
| CanvasSocket.ReceivedShape | collab-draw/client/src/app/hooks/useCanvasSocket.jsx:19-48 | a shape is built exactly when props are present and the type is one of the four wire names; it has that type and the sent properties; a line takes its end points; a pen with an id gets the props record as id |
| CanvasSocket.ReceivedPenStillMatches | collab-draw/client/src/app/hooks/useCanvasSocket.jsx:42 | a received pen shape is still found by its original id through `obj.id.id` |
| CanvasSocket.SelectedIndices | collab-draw/client/src/app/hooks/useCanvasSocket.jsx:112-114 | the picked objects are exactly those whose truthy id is in the list, in canvas order |
| CanvasSocket.NothingPickedWithoutPrimitiveIds | collab-draw/client/src/app/hooks/useCanvasSocket.jsx:112-114 | a list of arrays or records matches no object, since `includes` compares by identity |
| CanvasSocket.SocketHook.constructor | collab-draw/client/src/app/hooks/useCanvasSocket.jsx:13-14 | the hook starts with no socket and an empty echo map |
| CanvasSocket.SocketHook.DrawFromSocket | collab-draw/client/src/app/hooks/useCanvasSocket.jsx:17-60 | with a canvas, a well-formed drawing appends exactly one object built from it; a missing `props` or an unknown type leaves the canvas unchanged |
| CanvasSocket.SocketHook.ModifyFromSocket | collab-draw/client/src/app/hooks/useCanvasSocket.jsx:63-105 | a modify applies exactly when there is a canvas, `id` and `props`, it is not an echo and some object matches; the first match gets `props` and keeps its `evented`; every other object is untouched |
| CanvasSocket.SocketHook.HandleRemoteSelection | collab-draw/client/src/app/hooks/useCanvasSocket.jsx:108-132 | a non-array changes nothing; otherwise 0 matches clear the selection, 1 makes that object active, more make a group of them in canvas order |
| CanvasSocket.SocketHook.SelectOne | collab-draw/client/src/app/hooks/useCanvasSocket.jsx:117-120 | the one matched object becomes active and gets the selection style for its kind; the canvas's objects and listeners stay as they were |
| CanvasSocket.SocketHook.SelectGroup | collab-draw/client/src/app/hooks/useCanvasSocket.jsx:121-127 | a fresh active selection holding exactly the matched objects, in canvas order, becomes active with the group style; the canvas's objects and listeners stay as they were |
| CanvasSocket.SocketHook.InitializeConnection | collab-draw/client/src/app/hooks/useCanvasSocket.jsx:135-156 | enabled, a fresh socket is bound to the draw and modify handlers, and `selection:update` reaches no handler because the selection slot holds `roomId` |
| CanvasSocket.SocketHook.JoinRoom | collab-draw/client/src/app/hooks/useCanvasSocket.jsx:159-163 | `join-room` with the room and user goes out once when enabled with a room id and a socket, and nothing otherwise; the socket's connection and bindings are kept |
| SocketManager.InitializeSocket | collab-draw/client/src/app/manager/SocketManager.js:14-45 | disabled, no socket is made and the cleanup does nothing; enabled, an existing socket is disconnected before a fresh one bound to the given handlers is stored |
| SocketManager.RunCleanup | collab-draw/client/src/app/manager/SocketManager.js:129-135 | cleanup disconnects the current socket, if any, and empties the ref |
| SocketManager.Route | collab-draw/client/src/app/manager/SocketManager.js:61-82 | `shape:draw`, `shape:modify` and `selection:update` reach their handler exactly when it is a function |
| SocketManager.OnCanvasUndo | collab-draw/client/src/app/manager/SocketManager.js:85-99 | nothing happens without a canvas or a truthy state; otherwise the state loads with an empty listener table, the selection is dropped, and the saved table is restored |
| SocketManager.OnCanvasClear | collab-draw/client/src/app/manager/SocketManager.js:102-126 | the canvas is always cleared and left with no selection, the state loaded when present, and the saved listener table restored in both cases |
| CanvasHistory.History.constructor | collab-draw/client/src/app/hooks/useCanvasHistory.jsx:4 | history starts empty |
| CanvasHistory.History.Save | collab-draw/client/src/app/hooks/useCanvasHistory.jsx:6-20 | without a canvas nothing changes; otherwise exactly one entry is appended: a truthy `newState` as given, else a fresh snapshot |
| DrawingCanvas.OtherEventsUntouched | collab-draw/client/src/app/components/DrawingCanvas.jsx:91-102 | `off`/`on` of one event leaves every other event's handlers as they were |
| DrawingCanvas.ReattachKeepsHandlers | collab-draw/client/src/app/components/DrawingCanvas.jsx:91-102 | detaching and reattaching the save handler around a load leaves the listener set unchanged when it was registered |
| DrawingCanvas.DetachedDuringLoad | collab-draw/client/src/app/components/DrawingCanvas.jsx:91-97 | during the load the save handler is off every change event, so the load's own events save nothing |
| DrawingCanvas.RectangleSpansDrag | collab-draw/client/src/app/components/DrawingCanvas.jsx:211-223 | a rectangle started at a point spans exactly the start point and the pointer after its first drag step |
| DrawingCanvas.Component.constructor | collab-draw/client/src/app/components/DrawingCanvas.jsx:10-14 | no canvas, empty history, not drawing |
| DrawingCanvas.Component.Mount | collab-draw/client/src/app/components/DrawingCanvas.jsx:35-62 | after mount the history is the single snapshot of the fresh canvas |
| DrawingCanvas.Component.AttachSave | collab-draw/client/src/app/components/DrawingCanvas.jsx:123-125 | the save handler is registered for the three change events and nothing else changes |
| DrawingCanvas.Component.SaveCanvasState | collab-draw/client/src/app/components/DrawingCanvas.jsx:19-29 | without a canvas or for the select tool nothing changes; otherwise one snapshot is appended at the end |
| DrawingCanvas.Component.UndoCanvas | collab-draw/client/src/app/components/DrawingCanvas.jsx:79-103 | refused exactly without a canvas or with an empty history; otherwise the last entry is loaded with the save handler detached and the selection dropped, then popped, then the handler reattached |
| DrawingCanvas.Component.ClearCanvasConfirm | collab-draw/client/src/app/components/DrawingCanvas.jsx:105-118 | declined, nothing changes; confirmed, the canvas is empty with a white background and the history is empty |
| DrawingCanvas.Component.HandleMouseDown | collab-draw/client/src/app/components/DrawingCanvas.jsx:148-205 | with a canvas the start point is the pointer; a shape tool adds one zero-size shape and makes it the canvas's and the component's active object while drawing, keeping background and listeners; the text tool throws |
| DrawingCanvas.Component.HandleMouseMove | collab-draw/client/src/app/components/DrawingCanvas.jsx:207-239 | while drawing, a rectangle follows the drag, a circle takes the given radius, a line's end moves to the pointer |
| DrawingCanvas.Component.HandleMouseUp | collab-draw/client/src/app/components/DrawingCanvas.jsx:241-247 | drawing stops and the active object is dropped only while drawing with an active object |
| Relay.Forwarded | collab-draw/server/SocketManager.js:12-50 | only the four handled events are forwarded; drawings and selections unchanged; undo and clear as `{state: param \|\| {}}`, whose state is always truthy |
| Relay.Broadcast | collab-draw/server/SocketManager.js:14 | a broadcast reaches every connection but the sender, and never the sender |
| Relay.ReceiversIgnorePayload | collab-draw/server/SocketManager.js:9-55 | who receives a forward depends only on the connections and the sender, never on a `roomId` in the payload |
| Relay.BroadcastCount | collab-draw/server/SocketManager.js:14 | with distinct connections, the sender's broadcast makes one delivery per other connection |
| Relay.Without | collab-draw/server/SocketManager.js:52-54 | a disconnect removes exactly that connection |
| Relay.WithoutDistinct | collab-draw/server/SocketManager.js:9-54 | dropping a connection keeps the connections distinct, so one broadcast still reaches each other connection once |
| Relay.Server.constructor | collab-draw/server/SocketManager.js:9 | no connections and no emits |
| Relay.Server.Connect | collab-draw/server/SocketManager.js:9-10 | a new connection is added at the end and nothing is sent; no id is left twice if none was |
| Relay.Server.Disconnect | collab-draw/server/SocketManager.js:52-54 | the list becomes the old one without that connection, in its order; no id is left twice if none was; nothing is sent |
| Relay.Server.Receive | collab-draw/server/SocketManager.js:12-50 | an unhandled event sends nothing; a forward that goes through is broadcast to every other connection; a failing one sends only the sender an `error` event |
| ClientBoard.PointPayload | collab-draw/client/src/app/components/DrawingBoard.jsx:63-70 | `draw-data` carries the point, the colour and the line width |
| ClientBoard.Board.constructor | collab-draw/client/src/app/components/DrawingBoard.jsx:11-16 | black, width 3, not drawing, no strokes |
| ClientBoard.Board.StartDrawing | collab-draw/client/src/app/components/DrawingBoard.jsx:42-48 | drawing starts only when there is a context |
| ClientBoard.Board.Draw | collab-draw/client/src/app/components/DrawingBoard.jsx:50-72 | not drawing, nothing happens; otherwise exactly one point is appended and, with sockets on, sent as `draw-data`; a missing socket then throws; the socket's connection and bindings are kept |
| ClientBoard.Board.EndDrawing | collab-draw/client/src/app/components/DrawingBoard.jsx:74-84 | drawing stops; a non-empty path becomes a stroke with the colour and width and the path resets; an empty one changes no strokes |
| ClientBoard.Board.UndoDrawing | collab-draw/client/src/app/components/DrawingBoard.jsx:106-128 | no strokes, nothing happens; otherwise exactly the last stroke is removed, and the repaint throws exactly when a stroke remains |
| ClientBoard.Board.ClearDrawing | collab-draw/client/src/app/components/DrawingBoard.jsx:130-140 | strokes and current path are empty |
| ClientBoard.Board.ChangeColor | collab-draw/client/src/app/components/DrawingBoard.jsx:96-99 | only the colour changes |
| ClientBoard.Board.ChangeWidth | collab-draw/client/src/app/components/DrawingBoard.jsx:101-104 | only the width changes |
| Whiteboard.ParseSkipsLeadingSpace | collab-draw/src/app/components/DrawingBoard.jsx:77 | `parseInt` ignores leading white space |
| Whiteboard.MagnitudeOfDigits | collab-draw/src/app/components/DrawingBoard.jsx:77 | decimal digits, leading zeros included, read as their value |
| Whiteboard.ParseDigits | collab-draw/src/app/components/DrawingBoard.jsx:77 | `parseInt` of plain decimal digits, leading zeros included, is their value |
| Whiteboard.ParseUnsigned | collab-draw/src/app/components/DrawingBoard.jsx:77 | a text starting with a digit has no sign or space to skip: `parseInt` gives its magnitude, or `NaN` when it has none |
| Whiteboard.ParseNegativeDigits | collab-draw/src/app/components/DrawingBoard.jsx:77 | `parseInt` of a minus sign and digits, leading zeros included, is the negated value |
| Whiteboard.ParseDecimalString | collab-draw/src/app/components/DrawingBoard.jsx:75-78 | a width written out in decimal reads back as the same integer |
| Whiteboard.RepaintedAll | collab-draw/src/app/components/DrawingBoard.jsx:91-100 | when every stroke has points, the repaint covers all of them in order |
| Whiteboard.RepaintedSplit | collab-draw/src/app/components/DrawingBoard.jsx:91-100 | a front of strokes with points is repainted in full before the rest |
| Whiteboard.Board.constructor | collab-draw/src/app/components/DrawingBoard.jsx:11-20 | black, width 3, not drawing, nothing drawn |
| Whiteboard.Board.StartDrawing | collab-draw/src/app/components/DrawingBoard.jsx:35-41 | drawing starts only when there is a context; colour, width, style, strokes and path are kept |
| Whiteboard.Board.Draw | collab-draw/src/app/components/DrawingBoard.jsx:43-56 | not drawing, nothing happens; otherwise exactly one point is appended; colour, width, style and strokes are kept |
| Whiteboard.Board.EndDrawing | collab-draw/src/app/components/DrawingBoard.jsx:58-68 | drawing stops and the path resets; a non-empty path is stored with the current style; colour, width and style are kept |
| Whiteboard.Board.ChangeColor | collab-draw/src/app/components/DrawingBoard.jsx:70-73 | only the colour changes, in the state and in the style |
| Whiteboard.Board.ChangeWidth | collab-draw/src/app/components/DrawingBoard.jsx:75-78 | only the width changes; the style's width is the text parsed as an integer |
| Whiteboard.Board.UndoDrawing | collab-draw/src/app/components/DrawingBoard.jsx:80-102 | no strokes, nothing happens; otherwise exactly the last stroke is popped and the rest repainted in order, which never throws when every stroke has points; colour, width, style, drawing state and path are kept |
| Whiteboard.Board.ClearDrawing | collab-draw/src/app/components/DrawingBoard.jsx:104-114 | strokes, current path and painting are empty; colour, width, style and drawing state are kept |

## Left out

- Rendering is not modelled: `renderAll`, `setCoords`, the 2D-context drawing calls, toasts and console logging.
- The circle radius `Math.sqrt(dx*dx + dy*dy)` is floating point. The handlers take `radius` as a parameter.
- A multi-selection's transform matrix, scale products and angle sums are floating point. `SendGroupModification` takes what each member's record becomes as the `place` parameter.
- fabric's serialisation is opaque: snapshots are strings and the result of a load is a `Decoded` argument. fabric's `type`/`version` fields and its default properties are not modelled.
- `loadFromJSON` finishes synchronously in the model. The real callback runs later.
- Listener registration is modelled for the save handler of `DrawingCanvas`. Event dispatch by fabric and by socket.io is not: the handlers are methods called directly.
- React state is modelled as fields updated at once. Batching and re-renders are not modelled.
- Stale closures are modelled only partly. `saveCanvasState` captured its tool when it was created, so the tool is a parameter. The undo closure's stale `history` is not modelled: the model uses the current one.
- `DrawingContext.jsx` does not provide the `setUndo`/`setClearCanvas` that `DrawingCanvas.jsx` destructures. Undo and clear are modelled as methods of the component.
- The socket transport is not modelled: connect, reconnect, rooms and delivery order. A broadcast that fails partway is modelled as reaching no one.
- Relay.Server.Connect requires a fresh connection id, which socket.io provides.
- `server.js`, `server/server.js`, the pages, the toolbar, `useCanvasSetup.jsx`, `SocketUtils.js`, `manager/CanvasUtils.js` and `DrawingManager.js` are not part of this model.
- The client `DrawingBoard`'s `drawFromSocket` and its socket setup are not modelled. `server/SocketManager.js` never relays `draw-data` anyway.
- `parseInt` is modelled for decimal and `0x` hexadecimal text with an optional sign. A radix argument is not modelled, since `changeWidth` passes none.
- CanvasSocket.SocketHook.HandleRemoteSelection: the model builds a multi-selection as a plain group of its members. fabric's `ActiveSelection` also gives the selection its own bounds and re-expresses each member's left and top relative to the selection's centre. Discarding an earlier multi-selection restores its members' absolute coordinates. So the clause that every object's view is unchanged covers only the modelled fields, not fabric's group geometry. As wired, `InitializeConnection` leaves `selection:update` without a handler, so this one is never reached.
- CanvasEvents.EventsHook.HandleObjectAdded: the event target is taken to be non-null. With a missing target the source skips the id assignment and still saves history. With sockets on, it then throws at `obj.toObject`. That path is not modelled.
- CanvasEvents.EventsHook.SendGroupModification: requires the members of a multi-selection to be distinct objects, as fabric keeps them. It says nothing about the placed coordinates beyond what `place` returns.
- CanvasEvents.EventsHook.HandleObjectModification: requires distinct group members, for the same reason.
- SelectionOrder.SelectionChangedIffDifferentIds: proved for string ids only. For other ids the model proves only the direction in `DifferentIdsChangeSelection`, because e.g. two records both read `[object Object]` and so may sort differently.
- SelectionOrder.SelectionChanged: `JSON.stringify(a) !== JSON.stringify(b)` is taken as value inequality of the sorted lists. This holds for string ids. For other ids it is an abstraction in both directions. `JSON.stringify` drops `undefined` record fields and prints `undefined` in an array as `null`, so different lists can print the same text. It also prints record keys in insertion order, so equal records can print different texts. Record ids do occur: a received pen's id is its props record. So `DifferentIdsChangeSelection` may report a change for such ids where the source reports none.
- SelectionOrder.LexLe: compares strings by Unicode scalar value. The default `sort` compares UTF-16 code units. The two orders differ only when a character above U+FFFF is compared with one in U+E000–U+FFFF.
- Null or non-record payloads in the socket handlers are read as JavaScript would read a missing member. A handler reading a member of `null` would throw, and that is not modelled.

=== FILE: canvas_events.dfy ===
/**
 * The `useCanvasEvents` hook: what the local canvas sends when objects are
 * added, selected, transformed or drawn with the mouse.
 */
module CanvasEvents {
  import opened Values
  import opened Fabric
  import opened CanvasUtils
  import opened SocketManager
  import opened SelectionOrder
  import opened CanvasHistory
  import opened CanvasSocket

  /** The wire name of a fabric type: `rect` is sent as `rectangle`, `path` as `pen`. */
  function WireType(kind: string): string {
    if kind == "rect" then "rectangle" else if kind == "path" then "pen" else kind
  }

  /**
   * The receiver understands exactly the four drawable fabric types by their
   * wire names and rebuilds the same type from each.
   */
  lemma WireTypeRoundTrip(kind: string)
    ensures ReceivedKind(Str(WireType(kind))) == Some(kind) <==> kind in {"rect", "circle", "line", "path"}
    ensures ReceivedKind(Str(WireType(kind))).None? <==> kind !in {"rect", "circle", "line", "path", "rectangle", "pen"}
  {
  }

  /** The `shape:draw` payload `{roomId, type, props: obj.toObject(["id"])}`. */
  function DrawPayload(roomId: Value, wireType: string, s: Shape): Value {
    Rec(map["roomId" := roomId, "type" := Str(wireType), "props" := Rec(ToObject(s))])
  }

  /** The `shape:modify` payload `{roomId, id, props}`. */
  function ModifyPayload(roomId: Value, id: Value, props: map<string, Value>): Value {
    Rec(map["roomId" := roomId, "id" := id, "props" := Rec(props)])
  }

  /**
   * An object sent by `handleObjectAdded` arrives as an object of the same
   * type with the same properties, with `evented` at its default. Only a
   * pen shape with an id changes: it arrives with the sent record as its
   * id, and a lookup by the original primitive id still finds it.
   */
  lemma {:induction false} DrawRoundTrip(roomId: Value, s: Shape)
    requires WellFormed(s) && s.kind in {"rect", "circle", "line", "path"}
    requires s.kind == "line" ==> "x1" in s.props && "y1" in s.props && "x2" in s.props && "y2" in s.props
    requires s.kind == "path" ==> "path" in s.props && Truthy(s.props["path"])
    ensures ReceivedShape(DrawPayload(roomId, WireType(s.kind), s)).Some?
    ensures
      var r := ReceivedShape(DrawPayload(roomId, WireType(s.kind), s)).value;
      && r.kind == s.kind && r.props == s.props && r.evented == Bool(true)
      && (s.kind != "path" || !Truthy(s.id) ==> r.id == s.id)
      && (s.kind == "path" && Truthy(s.id) ==> r.id == Rec(ToObject(s)))
      && (!s.id.Arr? && !s.id.Rec? ==> Matches(r.id, s.id))
  {
    var data := DrawPayload(roomId, WireType(s.kind), s);
    assert Member(data, "props") == Rec(ToObject(s));
    assert Member(data, "type") == Str(WireType(s.kind));
    var p := ToObject(s);
    assert PropsOf(data) == p;
    assert ConstructorOptions(s.kind, p) == p by {
      if s.kind == "line" {
        assert p["x1" := Get(p, "x1")]["y1" := Get(p, "y1")]["x2" := Get(p, "x2")]["y2" := Get(p, "y2")] == p;
      } else if s.kind == "path" {
        assert p["path" := Or(Get(p, "path"), Arr([]))] == p;
      }
    }
    assert p - {"id", "evented"} == s.props;
  }

  /**
   * A modify built from the sender's object leaves the receiver's copy with
   * the sender's id and properties, whenever the copy has no property the
   * sender lacks; its `evented` flag is the receiver's own.
   */
  lemma ModifyConverges(sender: Shape, receiver: Shape)
    requires WellFormed(sender) && WellFormed(receiver)
    requires receiver.props.Keys <= sender.props.Keys
    ensures SetProps(receiver, ToObject(sender)).(evented := receiver.evented) == sender.(kind := receiver.kind, evented := receiver.evented)
  {
    assert receiver.props + (ToObject(sender) - {"id", "evented"}) == sender.props;
  }

  /** The truthy ids of a list of objects, in list order (`map(o => o.id).filter(id => !!id)`). */
  function TruthyIds(shapes: seq<Shape>): (r: seq<Value>)
    ensures |r| <= |shapes|
    ensures forall k :: 0 <= k < |r| ==> Truthy(r[k])
  {
    if shapes == [] then []
    else if Truthy(shapes[0].id) then [shapes[0].id] + TruthyIds(shapes[1..])
    else TruthyIds(shapes[1..])
  }

  /** Each truthy id occurs among the truthy ids exactly as often as among the objects' ids. */
  lemma {:induction false} TruthyIdsCount(shapes: seq<Shape>, v: Value)
    requires Truthy(v)
    ensures multiset(TruthyIds(shapes))[v] == multiset(Ids(shapes))[v]
  {
    if shapes != [] {
      TruthyIdsCount(shapes[1..], v);
      assert Ids(shapes) == [shapes[0].id] + Ids(shapes[1..]);
    }
  }

  /** An id is listed exactly when it is truthy and some object has it. */
  lemma TruthyIdsMembers(shapes: seq<Shape>, v: Value)
    ensures v in TruthyIds(shapes) <==> Truthy(v) && v in Ids(shapes)
  {
    if Truthy(v) {
      TruthyIdsCount(shapes, v);
    }
  }

  /** The truthy ids of two lists joined are those of the first followed by those of the second. */
  lemma {:induction false} TruthyIdsAppend(xs: seq<Shape>, ys: seq<Shape>)
    ensures TruthyIds(xs + ys) == TruthyIds(xs) + TruthyIds(ys)
  {
    if xs != [] {
      assert (xs + ys)[1..] == xs[1..] + ys;
      TruthyIdsAppend(xs[1..], ys);
    } else {
      assert xs + ys == ys;
    }
  }

  /** One more object adds its id at the end exactly when that id is truthy. */
  lemma TruthyIdsSnoc(xs: seq<Shape>, x: Shape)
    ensures TruthyIds(xs + [x]) == TruthyIds(xs) + (if Truthy(x.id) then [x.id] else [])
  {
    TruthyIdsAppend(xs, [x]);
    assert [x][1..] == [];
  }

  /**
   * The selection id list: a group gives its members' truthy ids in member
   * order, a single object with an id gives that id, otherwise none.
   */
  function SelectionIds(a: FabricObject?): (ids: seq<Value>)
    reads a, if a != null then a.members else []
    ensures a == null ==> ids == []
    ensures a != null && a.kind == "activeSelection" ==> ids == TruthyIds(Views(a.members))
    ensures a != null && a.kind != "activeSelection" ==> ids == (if Truthy(a.id) then [a.id] else [])
    ensures forall k :: 0 <= k < |ids| ==> Truthy(ids[k])
  {
    if a == null then []
    else if a.kind == "activeSelection" then TruthyIds(Views(a.members))
    else if Truthy(a.id) then [a.id]
    else []
  }

  /** `lastModified` after setting every id of `ids` to `now`, one after the other. */
  function Stamp(m: map<Value, int>, ids: seq<Value>, now: int): (r: map<Value, int>)
    ensures forall v :: v in r <==> v in m || v in ids
    ensures forall v :: v in ids ==> r[v] == now
    ensures forall v :: v in m && v !in ids ==> r[v] == m[v]
    decreases |ids|
  {
    if ids == [] then m
    else
      assert forall v :: v in ids <==> v == ids[0] || v in ids[1..] by {
        assert ids == [ids[0]] + ids[1..];
      }
      Stamp(m[ids[0] := now], ids[1..], now)
  }

  /** Stamping one more id is stamping the list and then that id. */
  lemma {:induction false} StampAppend(m: map<Value, int>, ids: seq<Value>, v: Value, now: int)
    ensures Stamp(m, ids + [v], now) == Stamp(m, ids, now)[v := now]
    decreases |ids|
  {
    if ids == [] {
      assert Stamp(m, [v], now) == Stamp(m[v := now], [], now);
    } else {
      assert (ids + [v])[0] == ids[0] && (ids + [v])[1..] == ids[1..] + [v];
      StampAppend(m[ids[0] := now], ids[1..], v, now);
    }
  }

  /** A list of objects after `assignId` with the fresh id `uuids(k)` for the `k`-th. */
  function WithIds(shapes: seq<Shape>, uuids: nat -> string): (r: seq<Shape>)
    requires forall n :: uuids(n) != ""
    ensures |r| == |shapes| && forall k :: 0 <= k < |shapes| ==> r[k] == WithId(shapes[k], uuids(k))
  {
    seq(|shapes|, k requires 0 <= k < |shapes| => WithId(shapes[k], uuids(k)))
  }

  /** The ids of a list of objects. */
  function Ids(shapes: seq<Shape>): (r: seq<Value>)
    ensures |r| == |shapes| && forall k :: 0 <= k < |shapes| ==> r[k] == shapes[k].id
  {
    seq(|shapes|, k requires 0 <= k < |shapes| => shapes[k].id)
  }

  /** The `shape:modify` message for one member of a moved group: its id and the properties of its placed copy. */
  function MemberMessage(roomId: Value, member: Shape, place: Shape -> map<string, Value>): Message {
    Message("shape:modify", ModifyPayload(roomId, member.id, ToObject(SetProps(member, place(member)))))
  }

  /**
   * The `shape:modify` messages for the members of a moved group, one per
   * member in member order.
   */
  function GroupMessages(roomId: Value, members: seq<Shape>, place: Shape -> map<string, Value>): (r: seq<Message>)
    ensures |r| == |members|
    ensures forall k :: 0 <= k < |members| ==> r[k] == MemberMessage(roomId, members[k], place)
  {
    seq(|members|, k requires 0 <= k < |members| => MemberMessage(roomId, members[k], place))
  }

  lemma GroupMessagesAppend(roomId: Value, members: seq<Shape>, m: Shape, place: Shape -> map<string, Value>)
    ensures GroupMessages(roomId, members + [m], place) == GroupMessages(roomId, members, place) + [MemberMessage(roomId, m, place)]
  {
    assert forall k :: 0 <= k < |members| ==> (members + [m])[k] == members[k];
  }

  lemma IdsAppend(shapes: seq<Shape>, m: Shape)
    ensures Ids(shapes + [m]) == Ids(shapes) + [m.id]
  {
    assert forall k :: 0 <= k < |shapes| ==> (shapes + [m])[k] == shapes[k];
  }

  /** `Math.abs` */
  function Abs(n: int): nat {
    if n < 0 then -n else n
  }

  /**
   * One rectangle drag step on the property map: `left`/`top` move to the
   * pointer only where it is before the start point, and `width`/`height`
   * become the distances.
   */
  function DragProps(p: map<string, Value>, start: Point, pointer: Point): (r: map<string, Value>)
    ensures "width" in r && r["width"] == Num(Abs(pointer.x - start.x))
    ensures "height" in r && r["height"] == Num(Abs(pointer.y - start.y))
    ensures pointer.x < start.x ==> "left" in r && r["left"] == Num(pointer.x)
    ensures pointer.y < start.y ==> "top" in r && r["top"] == Num(pointer.y)
    ensures forall k ::
      (k in p && k != "width" && k != "height" && (k == "left" ==> pointer.x >= start.x) &&
       (k == "top" ==> pointer.y >= start.y)) ==> k in r && r[k] == p[k]
    ensures forall k :: k in r ==> k in p || k in {"left", "top", "width", "height"}
  {
    var moved := if pointer.x < start.x then p["left" := Num(pointer.x)] else p;
    var moved' := if pointer.y < start.y then moved["top" := Num(pointer.y)] else moved;
    moved'["width" := Num(Abs(pointer.x - start.x))]["height" := Num(Abs(pointer.y - start.y))]
  }

  /** The object after one rectangle drag step. */
  function DragRect(s: Shape, start: Point, pointer: Point): Shape {
    s.(props := DragProps(s.props, start, pointer))
  }

  /**
   * The rectangle properties `p` span exactly from the smaller to the larger
   * coordinate of `start` and `pointer` on each axis.
   */
  predicate Spans(p: map<string, Value>, start: Point, pointer: Point) {
    && "left" in p && "top" in p && "width" in p && "height" in p
    && p["left"].Num? && p["top"].Num? && p["width"].Num? && p["height"].Num?
    && p["left"].n == (if pointer.x < start.x then pointer.x else start.x)
    && p["left"].n + p["width"].n == (if pointer.x < start.x then start.x else pointer.x)
    && p["top"].n == (if pointer.y < start.y then pointer.y else start.y)
    && p["top"].n + p["height"].n == (if pointer.y < start.y then start.y else pointer.y)
  }

  /**
   * A rectangle whose corner is still at the start point covers exactly the
   * span between the start point and the pointer after the next drag step;
   * that holds for the first step after a mouse-down.
   */
  lemma DragSpans(s: Shape, start: Point, pointer: Point)
    requires "left" in s.props && s.props["left"] == Num(start.x)
    requires "top" in s.props && s.props["top"] == Num(start.y)
    ensures Spans(DragRect(s, start, pointer).props, start, pointer)
  {
  }

  /**
   * A drag step moves `left` only while the pointer is left of the start,
   * so after dragging left and then back to the right of the start the
   * rectangle keeps the left edge of the first step: it no longer spans the
   * start point and the pointer, and is shifted left by the distance dragged.
   */
  lemma DragBackKeepsLeft(s: Shape, start: Point, a: int, b: int)
    requires a < start.x <= b
    ensures var r := DragRect(DragRect(s, start, Point(a, start.y)), start, Point(b, start.y)).props;
      && r["left"] == Num(a) && r["width"] == Num(b - start.x)
      && !Spans(r, start, Point(b, start.y))
  {
  }

  /** The options of the shape a mouse-down starts for a drawing tool. */
  function StartOptions(tool: string, pointer: Point, strokeColor: Value, strokeWidth: Value): map<string, Value> {
    if tool == "rectangle" then
      map["left" := Num(pointer.x), "top" := Num(pointer.y), "width" := Num(0), "height" := Num(0),
          "fill" := Str("transparent"), "stroke" := strokeColor, "strokeWidth" := strokeWidth]
    else if tool == "circle" then
      map["left" := Num(pointer.x), "top" := Num(pointer.y), "radius" := Num(0),
          "fill" := Str("transparent"), "stroke" := strokeColor, "strokeWidth" := strokeWidth]
    else
      map["stroke" := strokeColor, "strokeWidth" := strokeWidth,
          "x1" := Num(pointer.x), "y1" := Num(pointer.y), "x2" := Num(pointer.x), "y2" := Num(pointer.y)]
  }

  /** The fabric type a drawing tool creates. */
  function ToolKind(tool: string): string {
    if tool == "rectangle" then "rect" else tool
  }

  /**
   * The state of `useCanvasEvents`: its inputs (canvas, tool, stroke,
   * room, socket ref, the `saveCanvasState` history and the current
   * selection ids) and its own state (drawing flag, active object, start
   * point and the `lastModified` map local modifications are stamped in).
   */
  class EventsHook {
    const canvas: Canvas?
    const activeTool: string
    const strokeColor: Value
    const strokeWidth: Value
    const enabled: bool
    const roomId: Value
    const palette: Palette
    const socketRef: SocketRef
    const history: History
    var currentSelectionIds: seq<Value>
    var isDrawing: bool
    var activeObject: FabricObject?
    var startPoint: Option<Point>
    var lastModified: map<Value, int>

    constructor (canvas: Canvas?, activeTool: string, strokeColor: Value, strokeWidth: Value, enabled: bool,
                 roomId: Value, palette: Palette, socketRef: SocketRef, history: History, currentSelectionIds: seq<Value>)
      ensures this.canvas == canvas && this.activeTool == activeTool && this.strokeColor == strokeColor
      ensures this.strokeWidth == strokeWidth && this.enabled == enabled && this.roomId == roomId
      ensures this.palette == palette && this.socketRef == socketRef && this.history == history
      ensures this.currentSelectionIds == currentSelectionIds
      ensures !isDrawing && activeObject == null && startPoint == None && lastModified == map[]
    {
      this.canvas, this.activeTool, this.strokeColor, this.strokeWidth, this.enabled := canvas, activeTool, strokeColor, strokeWidth, enabled;
      this.roomId, this.palette, this.socketRef, this.history := roomId, palette, socketRef, history;
      this.currentSelectionIds := currentSelectionIds;
      isDrawing, activeObject, startPoint, lastModified := false, null, None, map[];
    }

    /**
     * `handleObjectAdded(e)`. With a canvas: an id-less object gets the
     * fresh id, then the history saves a snapshot (`snapshot`, taken after
     * the id), then `shape:draw` is sent, with the wire type and the
     * object's properties and id, only when sockets are on and a socket
     * exists.
     */
    method HandleObjectAdded(target: FabricObject, uuid: string, snapshot: string)
      requires uuid != ""
      modifies target, history, socketRef.current
      ensures socketRef.current != null ==>
        socketRef.current.connected == old(socketRef.current.connected) && socketRef.current.bindings == old(socketRef.current.bindings)
      ensures canvas == null ==> unchanged(target, history) && (socketRef.current == null || unchanged(socketRef.current))
      ensures canvas != null ==> target.View() == WithId(old(target.View()), uuid)
      ensures canvas != null && history.canvas != null ==> history.entries == old(history.entries) + [Str(snapshot)]
      ensures canvas != null && history.canvas == null ==> history.entries == old(history.entries)
      ensures canvas != null && enabled && socketRef.current != null ==>
        socketRef.current.sent ==
          old(socketRef.current.sent) + [Message("shape:draw", DrawPayload(roomId, WireType(target.kind), target.View()))]
      ensures canvas != null && enabled && socketRef.current != null ==> Truthy(Member(Member(Last(socketRef.current.sent).payload, "props"), "id"))
      ensures (canvas == null || !enabled) && socketRef.current != null ==> unchanged(socketRef.current)
    {
      if canvas == null {
        return;
      }
      if !Truthy(target.id) {
        target.id := Str(uuid);
      }
      history.Save(Undefined, snapshot);
      if enabled && socketRef.current != null {
        var wireType := target.kind;
        if wireType == "rect" {
          wireType := "rectangle";
        }
        if wireType == "path" {
          wireType := "pen";
        }
        socketRef.current.Emit(Message("shape:draw", DrawPayload(roomId, wireType, target.View())));
      }
    }

    /**
     * `handleSelectionChange()`. The active object, if any, is styled. Only
     * in the `select` tool with sockets on and a socket: when the sorted id
     * list differs from the sorted current one it is sent, sorted, and
     * becomes the current list; otherwise nothing is sent. Either way the
     * same selection would not be sent again.
     */
    method HandleSelectionChange()
      modifies this, (if canvas != null then {canvas.active} else {}), socketRef.current
      ensures socketRef.current == old(socketRef.current) && (canvas != null ==> canvas.active == old(canvas.active))
      ensures socketRef.current != null ==>
        socketRef.current.connected == old(socketRef.current.connected) && socketRef.current.bindings == old(socketRef.current.bindings)
      ensures canvas == null ==> unchanged(this) && (socketRef.current == null || unchanged(socketRef.current))
      ensures canvas != null && canvas.active != null ==> canvas.active.View() == Styled(old(canvas.active.View()), palette)
      ensures isDrawing == old(isDrawing) && activeObject == old(activeObject)
      ensures startPoint == old(startPoint) && lastModified == old(lastModified)
      ensures canvas != null && activeTool == "select" && enabled && socketRef.current != null ==>
        var ids := old(SelectionIds(canvas.active));
        && (SelectionChanged(ids, old(currentSelectionIds)) ==>
              && socketRef.current.sent == old(socketRef.current.sent) + [Message("selection:update", Arr(SortIds(ids)))]
              && currentSelectionIds == ids)
        && (!SelectionChanged(ids, old(currentSelectionIds)) ==>
              && socketRef.current.sent == old(socketRef.current.sent)
              && currentSelectionIds == old(currentSelectionIds))
        && !SelectionChanged(ids, currentSelectionIds)
      ensures !(canvas != null && activeTool == "select" && enabled && socketRef.current != null) ==>
        currentSelectionIds == old(currentSelectionIds) && (socketRef.current == null || unchanged(socketRef.current))
    {
      if canvas == null {
        return;
      }
      var a := canvas.active;
      // The styles set only properties, so the ids may be read before them.
      var ids := SelectionIds(a);
      ApplySelectionStyles(a, palette);
      if activeTool == "select" && enabled && socketRef.current != null {
        SendSelection(ids);
      }
    }

    /**
     * The sending half of `handleSelectionChange`: `ids` is sent sorted and
     * becomes the current list exactly when its sorted form differs from
     * the sorted current list.
     */
    method SendSelection(ids: seq<Value>)
      requires socketRef.current != null
      modifies this, socketRef.current
      ensures SelectionChanged(ids, old(currentSelectionIds)) ==>
        && socketRef.current.sent == old(socketRef.current.sent) + [Message("selection:update", Arr(SortIds(ids)))]
        && currentSelectionIds == ids
      ensures !SelectionChanged(ids, old(currentSelectionIds)) ==>
        && socketRef.current.sent == old(socketRef.current.sent)
        && currentSelectionIds == old(currentSelectionIds)
      ensures !SelectionChanged(ids, currentSelectionIds)
      ensures socketRef.current.connected == old(socketRef.current.connected)
      ensures socketRef.current.bindings == old(socketRef.current.bindings)
      ensures isDrawing == old(isDrawing) && activeObject == old(activeObject)
      ensures startPoint == old(startPoint) && lastModified == old(lastModified)
    {
      var sortedNew := SortIds(ids);
      var sortedCurrent := SortIds(currentSelectionIds);
      if sortedNew != sortedCurrent {
        socketRef.current.Emit(Message("selection:update", Arr(sortedNew)));
        currentSelectionIds := ids;
      }
    }

    /**
     * `handleObjectModification(e)`, with sockets on, a socket and a target:
     * a single object and a group are handled by the two methods below.
     */
    method HandleObjectModification(target: FabricObject?, now: int, uuids: nat -> string, place: Shape -> map<string, Value>)
      requires forall n :: uuids(n) != ""
      requires target != null ==> forall i, j :: 0 <= i < j < |target.members| ==> target.members[i] != target.members[j]
      modifies this, target, (if target != null then target.members else []), socketRef.current
      ensures socketRef.current != null ==>
        socketRef.current.connected == old(socketRef.current.connected) && socketRef.current.bindings == old(socketRef.current.bindings)
      ensures !enabled || socketRef.current == null || target == null ==>
        unchanged(this) && (target == null || unchanged(target)) && (socketRef.current == null || unchanged(socketRef.current))
      ensures currentSelectionIds == old(currentSelectionIds) && isDrawing == old(isDrawing)
      ensures activeObject == old(activeObject) && startPoint == old(startPoint)
      ensures enabled && socketRef.current != null && target != null && target.kind != "activeSelection" ==>
        && target.View() == WithId(old(target.View()), uuids(0))
        && lastModified == old(lastModified)[target.id := now]
        && socketRef.current.sent ==
             old(socketRef.current.sent) + [Message("shape:modify", ModifyPayload(roomId, target.id, ToObject(target.View())))]
      ensures enabled && socketRef.current != null && target != null && target.kind == "activeSelection" ==>
        && (forall k :: 0 <= k < |target.members| ==>
              target.members[k].View() == WithId(old(target.members[k].View()), uuids(k)))
        && lastModified == Stamp(old(lastModified), Ids(Views(target.members)), now)
        && socketRef.current.sent == old(socketRef.current.sent) + GroupMessages(roomId, Views(target.members), place)
      ensures enabled && socketRef.current != null && target != null && target.kind == "activeSelection" && target !in target.members ==>
        target.View() == old(target.View())
    {
      if !enabled || socketRef.current == null || target == null {
        return;
      }
      var next := SendTarget(target, socketRef.current, now, uuids, place, lastModified);
      ghost var views := Views(target.members);
      lastModified := next;
      assert Views(target.members) == views;
    }

    /**
     * The modification of a present target with sockets on, by its kind:
     * the single or the group path, on the echo map `stamps`. The new echo
     * map is returned.
     */
    method SendTarget(target: FabricObject, socket: Socket, now: int, uuids: nat -> string,
                      place: Shape -> map<string, Value>, stamps: map<Value, int>)
      returns (next: map<Value, int>)
      requires forall n :: uuids(n) != ""
      requires forall i, j :: 0 <= i < j < |target.members| ==> target.members[i] != target.members[j]
      modifies target, target.members, socket
      ensures socket.connected == old(socket.connected) && socket.bindings == old(socket.bindings)
      ensures target.kind != "activeSelection" ==>
        && target.View() == WithId(old(target.View()), uuids(0))
        && next == stamps[target.id := now]
        && socket.sent == old(socket.sent) + [Message("shape:modify", ModifyPayload(roomId, target.id, ToObject(target.View())))]
      ensures target.kind == "activeSelection" ==>
        && (forall k :: 0 <= k < |target.members| ==>
              target.members[k].View() == WithId(old(target.members[k].View()), uuids(k)))
        && next == Stamp(stamps, Ids(Views(target.members)), now)
        && socket.sent == old(socket.sent) + GroupMessages(roomId, Views(target.members), place)
      ensures target.kind == "activeSelection" && target !in target.members ==> target.View() == old(target.View())
    {
      if target.kind != "activeSelection" {
        next := SendModification(target, socket, now, uuids(0), stamps);
      } else {
        next := SendGroupModification(target, socket, now, uuids, place, stamps);
      }
    }

    /**
     * A single modified object: it gets the fresh id if it has none, its id
     * is stamped with `now` in the echo map `stamps`, and one `shape:modify`
     * carrying that id and its properties is sent. The new echo map is
     * returned.
     */
    method SendModification(target: FabricObject, socket: Socket, now: int, uuid: string, stamps: map<Value, int>)
      returns (next: map<Value, int>)
      requires uuid != ""
      modifies target, socket
      ensures socket.connected == old(socket.connected) && socket.bindings == old(socket.bindings)
      ensures target.View() == WithId(old(target.View()), uuid)
      ensures next == stamps[target.id := now]
      ensures socket.sent ==
        old(socket.sent) + [Message("shape:modify", ModifyPayload(roomId, target.id, ToObject(target.View())))]
      ensures target.id in next && Truthy(target.id)
    {
      if !Truthy(target.id) {
        target.id := Str(uuid);
      }
      var data := ToObject(target.View());
      next := stamps[target.id := now];
      socket.Emit(Message("shape:modify", ModifyPayload(roomId, target.id, data)));
    }

    /**
     * A modified group: its members in member order each get a fresh id if
     * they have none, are stamped with the same `now` in the echo map
     * `stamps`, and send one `shape:modify` for a copy placed by the
     * group's transform `place`. The new echo map is returned.
     */
    method SendGroupModification(group: FabricObject, socket: Socket, now: int, uuids: nat -> string,
                                 place: Shape -> map<string, Value>, stamps: map<Value, int>)
      returns (next: map<Value, int>)
      requires forall n :: uuids(n) != ""
      requires forall i, j :: 0 <= i < j < |group.members| ==> group.members[i] != group.members[j]
      modifies group.members, socket
      ensures socket.connected == old(socket.connected) && socket.bindings == old(socket.bindings)
      ensures forall k :: 0 <= k < |group.members| ==>
        group.members[k].View() == WithId(old(group.members[k].View()), uuids(k))
      ensures next == Stamp(stamps, Ids(Views(group.members)), now)
      ensures socket.sent == old(socket.sent) + GroupMessages(roomId, Views(group.members), place)
    {
      var members := group.members;
      ghost var after := WithIds(Views(members), uuids);
      next := stamps;
      var i := 0;
      while i < |members|
        invariant 0 <= i <= |members|
        invariant forall k :: 0 <= k < i ==> members[k].View() == after[k]
        invariant forall k :: i <= k < |members| ==> members[k].View() == old(members[k].View())
        invariant next == Stamp(stamps, Ids(after[..i]), now)
        invariant socket.sent == old(socket.sent) + GroupMessages(roomId, after[..i], place)
        invariant socket.connected == old(socket.connected) && socket.bindings == old(socket.bindings)
      {
        var o := members[i];
        next := ModifyMember(o, socket, now, uuids(i), place, next, stamps, old(socket.sent), after[..i]);
        assert after[..i + 1] == after[..i] + [o.View()];
        i := i + 1;
      }
      assert after[..i] == after;
      assert Views(members) == after;
    }

    /**
     * One member of a moved group: its id is defaulted, stamped with `now`
     * in `stamps`, and its placed copy sent; stamps and messages so far
     * extend by it.
     */
    method ModifyMember(o: FabricObject, socket: Socket, now: int, uuid: string, place: Shape -> map<string, Value>,
                        stamps: map<Value, int>, ghost stamped: map<Value, int>, ghost sent: seq<Message>, ghost prefix: seq<Shape>)
      returns (next: map<Value, int>)
      requires uuid != ""
      requires stamps == Stamp(stamped, Ids(prefix), now)
      requires socket.sent == sent + GroupMessages(roomId, prefix, place)
      modifies o, socket
      ensures socket.connected == old(socket.connected) && socket.bindings == old(socket.bindings)
      ensures o.View() == WithId(old(o.View()), uuid)
      ensures next == Stamp(stamped, Ids(prefix + [o.View()]), now)
      ensures socket.sent == sent + GroupMessages(roomId, prefix + [o.View()], place)
    {
      if !Truthy(o.id) {
        o.id := Str(uuid);
      }
      var data := ToObject(SetProps(o.View(), place(o.View())));
      next := stamps[o.id := now];
      var message := Message("shape:modify", ModifyPayload(roomId, o.id, data));
      assert message == MemberMessage(roomId, o.View(), place);
      socket.Emit(message);
      StampAppend(stamped, Ids(prefix), o.id, now);
      IdsAppend(prefix, o.View());
      GroupMessagesAppend(roomId, prefix, o.View(), place);
      assert socket.sent == sent + (GroupMessages(roomId, prefix, place) + [message]);
    }

    /**
     * `handleMouseDown`. With a canvas the start point becomes the pointer.
     * The rectangle, circle and line tools add a new zero-size shape with
     * the stroke, give it the fresh id, and make it the active object while
     * drawing. The text tool calls `new fabric.TextBox`, which fabric does
     * not define, so it throws with only the start point set.
     */
    method HandleMouseDown(pointer: Point, uuid: string) returns (threw: bool)
      requires uuid != ""
      modifies this, canvas
      ensures canvas == null ==> !threw && unchanged(this)
      ensures canvas != null ==> startPoint == Some(pointer)
      ensures threw <==> canvas != null && activeTool == "text"
      ensures currentSelectionIds == old(currentSelectionIds) && lastModified == old(lastModified)
      ensures canvas != null && activeTool in {"rectangle", "circle", "line"} ==>
        && |canvas.objects| == |old(canvas.objects)| + 1
        && canvas.objects[..|old(canvas.objects)|] == old(canvas.objects)
        && activeObject == canvas.objects[|old(canvas.objects)|] && fresh(activeObject)
        && activeObject.View() == WithId(FromOptions(ToolKind(activeTool), StartOptions(activeTool, pointer, strokeColor, strokeWidth)), uuid)
        && Truthy(activeObject.id) && isDrawing
      ensures canvas != null && activeTool in {"rectangle", "circle", "line"} ==>
        && canvas.active == old(canvas.active) && canvas.background == old(canvas.background)
        && canvas.listeners == old(canvas.listeners) && canvas.loads == old(canvas.loads)
      ensures canvas != null && activeTool !in {"rectangle", "circle", "line"} ==>
        unchanged(canvas) && activeObject == old(activeObject) && isDrawing == old(isDrawing)
    {
      if canvas == null {
        return false;
      }
      startPoint := Some(pointer);
      var shape: FabricObject? := null;
      if activeTool == "rectangle" {
        shape := new FabricObject("rect", StartOptions("rectangle", pointer, strokeColor, strokeWidth));
      } else if activeTool == "circle" {
        shape := new FabricObject("circle", StartOptions("circle", pointer, strokeColor, strokeWidth));
      } else if activeTool == "line" {
        shape := new FabricObject("line", StartOptions("line", pointer, strokeColor, strokeWidth));
      } else if activeTool == "text" {
        return true;
      }
      if shape != null {
        shape := AssignId(shape, uuid);
        canvas.Add(shape);
        activeObject := shape;
        isDrawing := true;
      }
      return false;
    }

    /**
     * `handleMouseMove` while drawing with an active object and a start
     * point: the rectangle tool applies one drag step, the line tool moves
     * the second end point to the pointer, and the circle tool sets the
     * radius `radius` (the root of the squared distance, computed by the
     * caller) and puts the circle's corner at the start point minus it.
     */
    method HandleMouseMove(pointer: Point, radius: int)
      modifies activeObject
      ensures !isDrawing || canvas == null || activeObject == null || startPoint.None? ==>
        activeObject == null || unchanged(activeObject)
      ensures isDrawing && canvas != null && activeObject != null && startPoint.Some? ==>
        activeObject.View() ==
          if activeTool == "rectangle" then DragRect(old(activeObject.View()), startPoint.value, pointer)
          else if activeTool == "circle" then
            old(activeObject.View()).(props := old(activeObject.props)["radius" := Num(radius)]
              ["left" := Num(startPoint.value.x - radius)]["top" := Num(startPoint.value.y - radius)])
          else if activeTool == "line" then
            old(activeObject.View()).(props := old(activeObject.props)["x2" := Num(pointer.x)]["y2" := Num(pointer.y)])
          else old(activeObject.View())
    {
      if !isDrawing || canvas == null || activeObject == null || startPoint.None? {
        return;
      }
      var start := startPoint.value;
      if activeTool == "rectangle" {
        var width := Abs(pointer.x - start.x);
        var height := Abs(pointer.y - start.y);
        if pointer.x < start.x {
          activeObject.props := activeObject.props["left" := Num(pointer.x)];
        }
        if pointer.y < start.y {
          activeObject.props := activeObject.props["top" := Num(pointer.y)];
        }
        activeObject.props := activeObject.props["width" := Num(width)]["height" := Num(height)];
      } else if activeTool == "circle" {
        activeObject.props := activeObject.props["radius" := Num(radius)]["left" := Num(start.x - radius)]["top" := Num(start.y - radius)];
      } else if activeTool == "line" {
        activeObject.props := activeObject.props["x2" := Num(pointer.x)]["y2" := Num(pointer.y)];
      }
    }

    /**
     * `handleMouseUp`. With a canvas, sockets on, an active object, a
     * drawing tool and a socket, `shape:draw` is sent with the tool name as
     * type. An active object without an id first gets one, and then the
     * handler throws on reassigning the constant `activeObject`, before
     * sending and before the reset. Otherwise the active object is cleared
     * and drawing stops.
     */
    method HandleMouseUp(uuid: string) returns (threw: bool)
      requires uuid != ""
      modifies this, activeObject, socketRef.current
      ensures socketRef.current != null ==>
        socketRef.current.connected == old(socketRef.current.connected) && socketRef.current.bindings == old(socketRef.current.bindings)
      ensures canvas == null ==> !threw && unchanged(this) && (socketRef.current == null || unchanged(socketRef.current))
      ensures threw <==>
        canvas != null && enabled && old(activeObject) != null && activeTool in {"rectangle", "circle", "line"} &&
        socketRef.current != null && !Truthy(old(activeObject.id))
      ensures threw ==>
        && activeObject == old(activeObject) && isDrawing == old(isDrawing)
        && activeObject.View() == WithId(old(activeObject.View()), uuid) && unchanged(socketRef.current)
      ensures canvas != null && !threw ==> activeObject == null && !isDrawing
      ensures (canvas != null && !threw && enabled && old(activeObject) != null && activeTool in {"rectangle", "circle", "line"} &&
        socketRef.current != null) ==>
          socketRef.current.sent ==
            old(socketRef.current.sent) + [Message("shape:draw", DrawPayload(roomId, activeTool, old(activeObject.View())))]
      ensures (canvas != null && !(enabled && old(activeObject) != null && activeTool in {"rectangle", "circle", "line"} &&
        socketRef.current != null)) ==> socketRef.current == null || unchanged(socketRef.current)
      ensures old(activeObject) != null && !threw ==> unchanged(old(activeObject))
      ensures currentSelectionIds == old(currentSelectionIds) && lastModified == old(lastModified) && startPoint == old(startPoint)
    {
      if canvas == null {
        return false;
      }
      var drawingShape := activeTool in {"rectangle", "circle", "line"};
      if enabled && activeObject != null && drawingShape && socketRef.current != null {
        if !Truthy(activeObject.id) {
          var _ := AssignId(activeObject, uuid);
          return true;
        }
        socketRef.current.Emit(Message("shape:draw", DrawPayload(roomId, activeTool, activeObject.View())));
      }
      activeObject := null;
      isDrawing := false;
      return false;
    }

    /**
     * `handlePathCreated`: a finished pen path gets an id if it has none and,
     * with sockets on and a socket, is sent as a `pen` shape.
     */
    method HandlePathCreated(path: FabricObject?, uuid: string)
      requires uuid != ""
      modifies path, socketRef.current
      ensures socketRef.current != null ==>
        socketRef.current.connected == old(socketRef.current.connected) && socketRef.current.bindings == old(socketRef.current.bindings)
      ensures path == null ==> socketRef.current == null || unchanged(socketRef.current)
      ensures path != null ==> path.View() == WithId(old(path.View()), uuid)
      ensures path != null && enabled && socketRef.current != null ==>
        socketRef.current.sent == old(socketRef.current.sent) + [Message("shape:draw", DrawPayload(roomId, "pen", path.View()))]
      ensures !(path != null && enabled) && socketRef.current != null ==> unchanged(socketRef.current)
    {
      if path == null {
        return;
      }
      var p := AssignId(path, uuid);
      if enabled && socketRef.current != null {
        socketRef.current.Emit(Message("shape:draw", DrawPayload(roomId, "pen", p.View())));
      }
    }
  }

  /** The last element of a non-empty list. */
  function Last<T>(s: seq<T>): T
    requires |s| > 0
  {
    s[|s| - 1]
  }
}

=== FILE: canvas_history.dfy ===
/** The snapshot history kept by the `useCanvasHistory` hook. */
module CanvasHistory {
  import opened Values
  import opened Fabric

  /**
   * `useCanvasHistory(fabricCanvas)`: a list of snapshots that only ever
   * grows, one entry per effective save.
   */
  class History {
    const canvas: Canvas?
    var entries: seq<Value>

    /** The history starts empty. */
    constructor (canvas: Canvas?)
      ensures this.canvas == canvas && entries == []
    {
      this.canvas := canvas;
      entries := [];
    }

    /**
     * `saveCanvasState(newState)`. Without a canvas nothing happens.
     * Otherwise exactly one entry is appended: `newState` itself when it is
     * truthy, else `snapshot`, the serialised canvas with ids.
     */
    method Save(newState: Value, snapshot: string)
      modifies this
      ensures canvas == null ==> entries == old(entries)
      ensures canvas != null && Truthy(newState) ==> entries == old(entries) + [newState]
      ensures canvas != null && !Truthy(newState) ==> entries == old(entries) + [Str(snapshot)]
    {
      if canvas != null {
        if Truthy(newState) {
          entries := entries + [newState];
        } else {
          entries := entries + [Str(snapshot)];
        }
      }
    }
  }
}

=== FILE: canvas_socket.dfy ===
/**
 * The `useCanvasSocket` hook: applying shapes, modifications and selections
 * that arrive from other participants to the local canvas.
 */
module CanvasSocket {
  import opened Values
  import opened Fabric
  import opened CanvasUtils
  import opened SocketManager

  /** Milliseconds after a local modification during which a remote one is taken for its echo. */
  const EchoWindow: int := 1000

  /**
   * `lastModified.has(id) && now - lastModified.get(id) < 1000`. A `Map`
   * keyed by a record or array finds only that very object, never one
   * that was just deserialised, so only primitive ids can hit.
   */
  predicate IsEcho(lastModified: map<Value, int>, id: Value, now: int) {
    !id.Arr? && !id.Rec? && id in lastModified && now - lastModified[id] < EchoWindow
  }

  /**
   * With the last local stamp `t` for a primitive id, a remote modify is
   * dropped exactly when it arrives before `t + 1000`; at `t + 1000` it is
   * applied, and an id never stamped always goes through.
   */
  lemma EchoWindowBounds(lastModified: map<Value, int>, id: Value, t: int, now: int)
    requires !id.Arr? && !id.Rec?
    ensures IsEcho(lastModified[id := t], id, now) <==> now < t + EchoWindow
    ensures !IsEcho(lastModified[id := t], id, t + EchoWindow)
    ensures id !in lastModified ==> !IsEcho(lastModified, id, now)
  {
  }

  /**
   * `obj.id === id || (obj.id && obj.id.id === id)`: the second case finds
   * received pen shapes, whose id is the record they were sent with.
   */
  predicate Matches(objId: Value, id: Value) {
    StrictEq(objId, id) || (Truthy(objId) && StrictEq(Member(objId, "id"), id))
  }

  /** `getObjects().find(...)`: the position of the first object matching `id`. */
  function FirstMatch(shapes: seq<Shape>, id: Value): (r: Option<nat>)
    ensures r.Some? ==> r.value < |shapes| && Matches(shapes[r.value].id, id)
    ensures r.Some? ==> forall j :: 0 <= j < r.value ==> !Matches(shapes[j].id, id)
    ensures r.None? ==> forall j :: 0 <= j < |shapes| ==> !Matches(shapes[j].id, id)
  {
    if shapes == [] then None
    else if Matches(shapes[0].id, id) then Some(0)
    else
      match FirstMatch(shapes[1..], id)
      case None => None
      case Some(k) => Some(k + 1)
  }

  /** The fabric type a received `data.type` names; other names are dropped. */
  function ReceivedKind(t: Value): Option<string> {
    if t == Str("rectangle") then Some("rect")
    else if t == Str("circle") then Some("circle")
    else if t == Str("line") then Some("line")
    else if t == Str("pen") then Some("path")
    else None
  }

  /** `{ ...data.props }` */
  function PropsOf(data: Value): map<string, Value> {
    Fields(Member(data, "props"))
  }

  /**
   * The options the fabric constructor ends up with: a line takes its end
   * points from `props.x1 .. props.y2`, a path takes `props.path || []`.
   */
  function ConstructorOptions(kind: string, p: map<string, Value>): (r: map<string, Value>)
    ensures forall k :: k in p && (kind != "path" || k != "path") ==> k in r && r[k] == p[k]
    ensures kind == "line" ==> forall k :: k in {"x1", "y1", "x2", "y2"} ==> k in r && r[k] == Get(p, k)
    ensures kind == "path" ==> "path" in r && r["path"] == Or(Get(p, "path"), Arr([]))
    ensures Get(r, "id") == Get(p, "id")
    ensures ("evented" in r <==> "evented" in p) && ("evented" in p ==> r["evented"] == p["evented"])
  {
    if kind == "line" then
      p["x1" := Get(p, "x1")]["y1" := Get(p, "y1")]["x2" := Get(p, "x2")]["y2" := Get(p, "y2")]
    else if kind == "path" then
      p["path" := Or(Get(p, "path"), Arr([]))]
    else p
  }

  /** The object `drawFromSocket(data)` adds to the canvas, if any. */
  function ReceivedShape(data: Value): (r: Option<Shape>)
    ensures r.Some? <==> Truthy(Member(data, "props")) && ReceivedKind(Member(data, "type")).Some?
    ensures r.Some? ==> WellFormed(r.value) && r.value.kind == ReceivedKind(Member(data, "type")).value
    ensures r.Some? ==> forall k :: k in PropsOf(data) && k != "id" && k != "evented" && (r.value.kind != "path" || k != "path") ==>
      k in r.value.props && r.value.props[k] == PropsOf(data)[k]
    ensures r.Some? ==> r.value.evented == (if "evented" in PropsOf(data) then PropsOf(data)["evented"] else Bool(true))
    ensures r.Some? && r.value.kind == "line" ==>
      forall k :: k in {"x1", "y1", "x2", "y2"} ==> k in r.value.props && r.value.props[k] == Get(PropsOf(data), k)
    ensures r.Some? && r.value.kind == "path" ==> "path" in r.value.props && r.value.props["path"] == Or(Get(PropsOf(data), "path"), Arr([]))
    ensures r.Some? && (r.value.kind != "path" || !Truthy(Get(PropsOf(data), "id"))) ==> r.value.id == Get(PropsOf(data), "id")
    ensures r.Some? && r.value.kind == "path" && Truthy(Get(PropsOf(data), "id")) ==> r.value.id == Rec(PropsOf(data))
  {
    if !Truthy(Member(data, "props")) || ReceivedKind(Member(data, "type")).None? then None
    else
      var kind := ReceivedKind(Member(data, "type")).value;
      var s := FromOptions(kind, ConstructorOptions(kind, PropsOf(data)));
      if kind == "path" && Truthy(s.id) then Some(s.(id := Rec(PropsOf(data)))) else Some(s)
  }

  /**
   * A received pen shape stores its whole props record as its id; a later
   * modify naming the original id still finds it.
   */
  lemma ReceivedPenStillMatches(data: Value)
    requires ReceivedShape(data).Some? && ReceivedShape(data).value.kind == "path"
    requires !Get(PropsOf(data), "id").Arr? && !Get(PropsOf(data), "id").Rec?
    ensures Matches(ReceivedShape(data).value.id, Get(PropsOf(data), "id"))
  {
  }

  /** `o.id && selectionIds.includes(o.id)` */
  predicate Picked(s: Shape, ids: seq<Value>) {
    Truthy(s.id) && Includes(ids, s.id)
  }

  /** The positions `handleRemoteSelection` selects: every picked object, in canvas order. */
  function SelectedIndices(shapes: seq<Shape>, ids: seq<Value>): (r: seq<nat>)
    ensures forall k :: 0 <= k < |r| ==> r[k] < |shapes| && Picked(shapes[r[k]], ids)
    ensures forall k, l :: 0 <= k < l < |r| ==> r[k] < r[l]
    ensures forall j :: 0 <= j < |shapes| && Picked(shapes[j], ids) ==> j in r
  {
    if shapes == [] then []
    else
      var n := |shapes| - 1;
      var front := SelectedIndices(shapes[..n], ids);
      if Picked(shapes[n], ids) then front + [n] else front
  }

  /** No object is picked by an id list that holds no primitive value. */
  lemma NothingPickedWithoutPrimitiveIds(shapes: seq<Shape>, ids: seq<Value>)
    requires forall k :: 0 <= k < |ids| ==> ids[k].Arr? || ids[k].Rec?
    ensures SelectedIndices(shapes, ids) == []
  {
  }

  /** The objects at the given positions, in the order of the positions. */
  function At(objs: seq<FabricObject>, idx: seq<nat>): (r: seq<FabricObject>)
    requires forall k :: 0 <= k < |idx| ==> idx[k] < |objs|
    ensures |r| == |idx| && forall k :: 0 <= k < |idx| ==> r[k] == objs[idx[k]]
  {
    seq(|idx|, k requires 0 <= k < |idx| => objs[idx[k]])
  }

  /**
   * The state of `useCanvasSocket`: the canvas it applies to, the socket
   * ref, the room and user it joins as, and its own `lastModified` map.
   */
  class SocketHook {
    const canvas: Canvas?
    const enabled: bool
    const roomId: Value
    const username: Value
    const palette: Palette
    const socketRef: SocketRef
    /**
     * The echo map this hook reads. It is created empty here and nothing
     * in this hook writes it; the map the local edits are stamped in
     * belongs to `useCanvasEvents`.
     */
    var lastModified: map<Value, int>

    constructor (canvas: Canvas?, enabled: bool, roomId: Value, username: Value, palette: Palette)
      ensures this.canvas == canvas && this.enabled == enabled && this.roomId == roomId
      ensures this.username == username && this.palette == palette
      ensures fresh(socketRef) && socketRef.current == null
      ensures lastModified == map[]
    {
      this.canvas, this.enabled, this.roomId, this.username, this.palette := canvas, enabled, roomId, username, palette;
      socketRef := new SocketRef();
      lastModified := map[];
    }

    /**
     * `drawFromSocket(data)`: with a canvas, a payload with `props` and a
     * known `type` adds exactly one new object at the end of the canvas
     * list; anything else leaves the canvas as it was.
     */
    method DrawFromSocket(data: Value)
      modifies canvas
      ensures canvas != null && ReceivedShape(data).Some? ==>
        && |canvas.objects| == |old(canvas.objects)| + 1
        && canvas.objects[..|old(canvas.objects)|] == old(canvas.objects)
        && fresh(canvas.objects[|old(canvas.objects)|])
        && canvas.objects[|old(canvas.objects)|].View() == ReceivedShape(data).value
        && canvas.active == old(canvas.active) && canvas.background == old(canvas.background)
        && canvas.listeners == old(canvas.listeners) && canvas.loads == old(canvas.loads)
      ensures canvas != null && ReceivedShape(data).None? ==> unchanged(canvas)
    {
      if canvas == null || !Truthy(Member(data, "props")) || !Truthy(Member(data, "type")) {
        return;
      }
      var p := PropsOf(data);
      var t := Member(data, "type");
      var shape: FabricObject;
      if t == Str("rectangle") {
        shape := new FabricObject("rect", p);
      } else if t == Str("circle") {
        shape := new FabricObject("circle", p);
      } else if t == Str("line") {
        shape := new FabricObject("line", ConstructorOptions("line", p));
      } else if t == Str("pen") {
        shape := new FabricObject("path", ConstructorOptions("path", p));
        if Truthy(shape.id) {
          shape.id := Rec(p);
        }
      } else {
        return;
      }
      canvas.Add(shape);
    }

    /**
     * `modifyFromSocket(data)`. Nothing happens without a canvas, a truthy
     * `data.id` and truthy `data.props`, for an echo, or when no object
     * matches. Otherwise the first matching object, whose position is
     * returned, takes every field of `props` while its `evented` flag ends
     * as it was; no other object changes.
     */
    method ModifyFromSocket(data: Value, now: int) returns (applied: Option<nat>)
      modifies if canvas != null then canvas.objects else []
      ensures applied.Some? <==>
        && canvas != null && Truthy(Member(data, "id")) && Truthy(Member(data, "props"))
        && !IsEcho(lastModified, Member(data, "id"), now)
        && FirstMatch(old(Views(canvas.objects)), Member(data, "id")).Some?
      ensures applied.Some? ==> applied == FirstMatch(old(Views(canvas.objects)), Member(data, "id"))
      ensures applied.Some? ==>
        var o := canvas.objects[applied.value];
        o.View() == SetProps(old(o.View()), Fields(Member(data, "props"))).(evented := old(o.evented))
      ensures canvas != null ==> forall k ::
        (0 <= k < |canvas.objects| && (applied.None? || canvas.objects[k] != canvas.objects[applied.value])) ==>
          canvas.objects[k].View() == old(canvas.objects[k].View())
    {
      if canvas == null || !Truthy(Member(data, "id")) || !Truthy(Member(data, "props")) {
        return None;
      }
      var id := Member(data, "id");
      var props := Member(data, "props");
      if IsEcho(lastModified, id, now) {
        return None;
      }
      applied := FirstMatch(Views(canvas.objects), id);
      if applied.Some? {
        var o := canvas.objects[applied.value];
        var originalEvented := o.evented;
        o.evented := Bool(false);
        o.Set(Fields(props));
        o.evented := originalEvented;
      }
    }

    /**
     * `handleRemoteSelection(selectionIds)`. Without a canvas or for a
     * non-array nothing happens. Otherwise the active object is discarded
     * and the picked objects, in canvas order, decide: none leaves nothing
     * active, one becomes the styled active object, more become one new
     * styled group.
     */
    method HandleRemoteSelection(ids: Value)
      modifies canvas, if canvas != null then canvas.objects else []
      ensures canvas == null || !ids.Arr? ==>
        canvas == null || (unchanged(canvas) && forall k :: 0 <= k < |canvas.objects| ==> unchanged(canvas.objects[k]))
      ensures canvas != null && ids.Arr? ==>
        && canvas.objects == old(canvas.objects)
        && canvas.background == old(canvas.background)
        && canvas.listeners == old(canvas.listeners) && canvas.loads == old(canvas.loads)
      ensures canvas != null && ids.Arr? ==>
        var idx := SelectedIndices(old(Views(canvas.objects)), ids.items);
        && (|idx| == 0 ==> canvas.active == null)
        && (|idx| == 1 ==>
              && canvas.active == canvas.objects[idx[0]]
              && canvas.active.View() == Styled(old(canvas.objects[idx[0]].View()), palette))
        && (|idx| > 1 ==>
              && canvas.active != null && fresh(canvas.active)
              && canvas.active.members == At(canvas.objects, idx)
              && canvas.active.View() == SetProps(Shape("activeSelection", Undefined, map[], Bool(true)),
                                                  SelectionStyle(true, palette)))
        && (forall k :: 0 <= k < |canvas.objects| && (|idx| != 1 || canvas.objects[k] != canvas.objects[idx[0]]) ==>
              canvas.objects[k].View() == old(canvas.objects[k].View()))
    {
      if canvas == null || !ids.Arr? {
        return;
      }
      var idx := SelectedIndices(Views(canvas.objects), ids.items);
      canvas.active := null;
      if |idx| == 1 {
        SelectOne(canvas.objects[idx[0]]);
      } else if |idx| > 1 {
        SelectGroup(At(canvas.objects, idx));
      }
    }

    /** One picked object becomes the active object, styled as a single object. */
    method SelectOne(o: FabricObject)
      requires canvas != null
      modifies canvas, o
      ensures canvas.active == o && o.View() == Styled(old(o.View()), palette)
      ensures canvas.objects == old(canvas.objects) && canvas.background == old(canvas.background)
      ensures canvas.listeners == old(canvas.listeners) && canvas.loads == old(canvas.loads)
    {
      canvas.active := o;
      ApplySelectionStyles(o, palette);
    }

    /** Several picked objects become one new group, styled as a group, that is the active object. */
    method SelectGroup(members: seq<FabricObject>)
      requires canvas != null
      modifies canvas
      ensures canvas.active != null && fresh(canvas.active) && canvas.active.members == members
      ensures canvas.active.View() == SetProps(Shape("activeSelection", Undefined, map[], Bool(true)), SelectionStyle(true, palette))
      ensures canvas.objects == old(canvas.objects) && canvas.background == old(canvas.background)
      ensures canvas.listeners == old(canvas.listeners) && canvas.loads == old(canvas.loads)
    {
      var group := new FabricObject.Group(members);
      ApplySelectionStyles(group, palette);
      canvas.active := group;
    }

    /**
     * The connection effect: `initializeSocket` is called with eight
     * arguments but declares six, so the selection-handler slot receives
     * `roomId` and remote selections are never dispatched.
     */
    method InitializeConnection() returns (cleanup: Cleanup)
      modifies socketRef, socketRef.current
      ensures !enabled ==> cleanup == NoCleanup && socketRef.current == old(socketRef.current)
      ensures enabled ==> cleanup == DisconnectRef(socketRef) && socketRef.current != null && fresh(socketRef.current)
      ensures enabled ==>
        socketRef.current.bindings ==
          Some(Bindings(Function("drawFromSocket"), Function("modifyFromSocket"), canvas, NotFunction(roomId)))
      ensures enabled ==> Route(socketRef.current.bindings.value, "selection:update") == None
      ensures enabled ==> Route(socketRef.current.bindings.value, "shape:draw") == Some(Function("drawFromSocket"))
    {
      cleanup := InitializeSocket(socketRef, enabled, Function("drawFromSocket"), Function("modifyFromSocket"),
                                  canvas, NotFunction(roomId));
    }

    /** The join effect: `join-room` with the room and user, only when enabled, in a room and connected. */
    method JoinRoom()
      modifies socketRef.current
      ensures socketRef.current != null ==>
        socketRef.current.connected == old(socketRef.current.connected) && socketRef.current.bindings == old(socketRef.current.bindings)
      ensures enabled && Truthy(roomId) && socketRef.current != null ==>
        socketRef.current.sent ==
          old(socketRef.current.sent) + [Message("join-room", Rec(map["roomId" := roomId, "username" := username]))]
      ensures !(enabled && Truthy(roomId) && socketRef.current != null) ==>
        socketRef.current == null || unchanged(socketRef.current)
    {
      if enabled && Truthy(roomId) && socketRef.current != null {
        socketRef.current.Emit(Message("join-room", Rec(map["roomId" := roomId, "username" := username])));
      }
    }
  }
}

=== FILE: canvas_utils.dfy ===
/** Id defaulting and selection styling shared by the canvas hooks. */
module CanvasUtils {
  import opened Values
  import opened Fabric

  /** The id an object carries after `assignId` with the fresh id `uuid`. */
  function AssignedId(id: Value, uuid: string): (r: Value)
    requires uuid != ""
    ensures Truthy(r)
    ensures r == id || r == Str(uuid)
  {
    if Truthy(id) then id else Str(uuid)
  }

  /** An object that already has an id keeps it; one without gets the fresh id. */
  lemma AssignedIdKeepsExisting(id: Value, uuid: string)
    requires uuid != ""
    ensures Truthy(id) ==> AssignedId(id, uuid) == id
    ensures !Truthy(id) ==> AssignedId(id, uuid) == Str(uuid)
  {
  }

  /** A second `assignId`, whatever fresh id it is offered, changes nothing. */
  lemma AssignedIdIdempotent(id: Value, uuid1: string, uuid2: string)
    requires uuid1 != "" && uuid2 != ""
    ensures AssignedId(AssignedId(id, uuid1), uuid2) == AssignedId(id, uuid1)
  {
  }

  /** The state of an object after `assignId`. */
  function WithId(s: Shape, uuid: string): Shape
    requires uuid != ""
  {
    s.(id := AssignedId(s.id, uuid))
  }

  /**
   * `assignId(obj)`: an object without a truthy id gets the fresh `uuid`
   * in place; the object itself, or `null`, is returned.
   */
  method AssignId(obj: FabricObject?, uuid: string) returns (r: FabricObject?)
    requires uuid != ""
    modifies obj
    ensures r == obj
    ensures obj != null ==> obj.View() == WithId(old(obj.View()), uuid)
  {
    if obj != null && !Truthy(obj.id) {
      obj.id := Str(uuid);
    }
    r := obj;
  }

  /** The two colours of `SELECTION_STYLES`; their definition is not part of this model. */
  datatype Palette = Palette(borderColor: Value, cornerColor: Value)

  /** The style fields `applySelectionStyles` sets, for a group or a single object. */
  function SelectionStyle(group: bool, palette: Palette): (m: map<string, Value>)
    ensures m.Keys == {"borderColor", "cornerColor", "cornerSize", "transparentCorners", "cornerStyle", "borderDashArray"}
    ensures m["cornerSize"] == Num(if group then 10 else 8)
  {
    map[
      "borderColor" := palette.borderColor,
      "cornerColor" := palette.cornerColor,
      "cornerSize" := Num(if group then 10 else 8),
      "transparentCorners" := Bool(false),
      "cornerStyle" := Str("circle"),
      "borderDashArray" := Arr([Num(3), Num(3)])
    ]
  }

  /** Groups and single objects are styled alike except for the corner size. */
  lemma StylesDifferOnlyInCornerSize(palette: Palette)
    ensures forall k :: k in SelectionStyle(true, palette) && k != "cornerSize" ==>
      k in SelectionStyle(false, palette) && SelectionStyle(true, palette)[k] == SelectionStyle(false, palette)[k]
    ensures SelectionStyle(true, palette)["cornerSize"] != SelectionStyle(false, palette)["cornerSize"]
  {
  }

  /** An object after `applySelectionStyles`: the group style for an `activeSelection`, the single style otherwise. */
  function Styled(s: Shape, palette: Palette): Shape {
    SetProps(s, SelectionStyle(s.kind == "activeSelection", palette))
  }

  /** `applySelectionStyles(obj)`: `obj.set(style)`, with the group style for an `activeSelection`. */
  method ApplySelectionStyles(obj: FabricObject?, palette: Palette)
    modifies obj
    ensures obj != null ==> obj.View() == Styled(old(obj.View()), palette)
  {
    if obj == null {
      return;
    }
    obj.Set(SelectionStyle(obj.kind == "activeSelection", palette));
  }
}

=== FILE: client_board.dfy ===
/**
 * The client's plain-canvas `WhiteBoard` component (`DrawingBoard.jsx` under
 * `client/`): freehand strokes collected point by point, a list of finished
 * strokes with undo and clear, and each point sent as `draw-data`.
 */
module ClientBoard {
  import opened Values
  import opened Fabric
  import opened SocketManager

  /** A finished stroke as this component stores it: `{ path, color, width }`. */
  datatype Stroke = Stroke(path: seq<Point>, color: string, width: Value)

  /** The `draw-data` payload for one point. */
  function PointPayload(p: Point, color: string, lineWidth: Value): (r: Value)
    ensures r.Rec? && r.fields.Keys == {"x", "y", "color", "lineWidth"}
    ensures Member(r, "x") == Num(p.x) && Member(r, "y") == Num(p.y)
    ensures Member(r, "color") == Str(color) && Member(r, "lineWidth") == lineWidth
  {
    Rec(map["x" := Num(p.x), "y" := Num(p.y), "color" := Str(color), "lineWidth" := lineWidth])
  }

  /** Every stored stroke has at least one point. */
  predicate NonEmptyStrokes(strokes: seq<Stroke>) {
    forall k :: 0 <= k < |strokes| ==> |strokes[k].path| > 0
  }

  class Board {
    /** Whether the 2D context has been set up (`canvasContext` is non-null). */
    const hasContext: bool
    var drawing: bool
    var currentColor: string
    /** The width as last set, a number at first and whatever the width control passes afterwards. */
    var lineWidth: Value
    var drawingActions: seq<Stroke>
    var currentPath: seq<Point>
    const socketEnabled: bool
    const socketRef: SocketRef

    /** The initial state: black, width 3, nothing drawn. */
    constructor (hasContext: bool, socketEnabled: bool, socketRef: SocketRef)
      ensures this.hasContext == hasContext && this.socketEnabled == socketEnabled && this.socketRef == socketRef
      ensures !drawing && currentColor == "black" && lineWidth == Num(3)
      ensures drawingActions == [] && currentPath == []
    {
      this.hasContext, this.socketEnabled, this.socketRef := hasContext, socketEnabled, socketRef;
      drawing, currentColor, lineWidth := false, "black", Num(3);
      drawingActions, currentPath := [], [];
    }

    /** `startDrawing`: drawing starts only when there is a context. */
    method StartDrawing()
      modifies this
      ensures drawing == (old(drawing) || hasContext)
      ensures currentColor == old(currentColor) && lineWidth == old(lineWidth)
      ensures drawingActions == old(drawingActions) && currentPath == old(currentPath)
    {
      if hasContext {
        drawing := true;
      }
    }

    /**
     * `draw` at point `p`. Not drawing, or without a context, nothing
     * happens. Otherwise the point is appended to the current path and,
     * with sockets on, sent as `draw-data` with the colour and width; a
     * missing socket then throws after the point was appended.
     */
    method Draw(p: Point) returns (threw: bool)
      modifies this, socketRef.current
      ensures socketRef.current != null ==>
        socketRef.current.connected == old(socketRef.current.connected) && socketRef.current.bindings == old(socketRef.current.bindings)
      ensures !old(drawing) || !hasContext ==>
        !threw && unchanged(this) && (socketRef.current == null || unchanged(socketRef.current))
      ensures old(drawing) && hasContext ==> currentPath == old(currentPath) + [p]
      ensures threw <==> old(drawing) && hasContext && socketEnabled && socketRef.current == null
      ensures old(drawing) && hasContext && socketEnabled && socketRef.current != null ==>
        socketRef.current.sent == old(socketRef.current.sent) + [Message("draw-data", PointPayload(p, currentColor, lineWidth))]
      ensures !socketEnabled && socketRef.current != null ==> unchanged(socketRef.current)
      ensures drawing == old(drawing) && currentColor == old(currentColor)
      ensures lineWidth == old(lineWidth) && drawingActions == old(drawingActions)
    {
      threw := false;
      if !drawing || !hasContext {
        return;
      }
      currentPath := currentPath + [p];
      if socketEnabled {
        if socketRef.current == null {
          return true;
        }
        socketRef.current.Emit(Message("draw-data", PointPayload(p, currentColor, lineWidth)));
      }
    }

    /**
     * `endDrawing`: drawing always stops; a non-empty path is stored as a
     * stroke with the current colour and width and the path reset, an empty
     * one changes nothing else.
     */
    method EndDrawing()
      modifies this
      ensures !drawing
      ensures |old(currentPath)| > 0 ==>
        drawingActions == old(drawingActions) + [Stroke(old(currentPath), currentColor, lineWidth)] && currentPath == []
      ensures |old(currentPath)| == 0 ==> drawingActions == old(drawingActions) && currentPath == []
      ensures NonEmptyStrokes(old(drawingActions)) ==> NonEmptyStrokes(drawingActions)
      ensures currentColor == old(currentColor) && lineWidth == old(lineWidth)
    {
      drawing := false;
      if |currentPath| > 0 {
        drawingActions := drawingActions + [Stroke(currentPath, currentColor, lineWidth)];
        currentPath := [];
      }
    }

    /**
     * `undoDrawing`: with no strokes nothing happens. Otherwise the last
     * stroke is popped in place and the rest are repainted; the repaint
     * reads a `style` field the stored strokes do not have, so it throws
     * as soon as a stroke remains.
     */
    method UndoDrawing() returns (threw: bool)
      modifies this
      ensures old(drawingActions) == [] ==> !threw && unchanged(this)
      ensures old(drawingActions) != [] ==> drawingActions == old(drawingActions)[..|old(drawingActions)| - 1]
      ensures threw <==> |old(drawingActions)| > 1
      ensures NonEmptyStrokes(old(drawingActions)) ==> NonEmptyStrokes(drawingActions)
      ensures drawing == old(drawing) && currentPath == old(currentPath)
      ensures currentColor == old(currentColor) && lineWidth == old(lineWidth)
    {
      if |drawingActions| > 0 {
        drawingActions := drawingActions[..|drawingActions| - 1];
        return |drawingActions| > 0;
      }
      return false;
    }

    /** `clearDrawing`: no strokes and no current path. */
    method ClearDrawing()
      modifies this
      ensures drawingActions == [] && currentPath == []
      ensures drawing == old(drawing)
      ensures currentColor == old(currentColor) && lineWidth == old(lineWidth)
    {
      drawingActions, currentPath := [], [];
    }

    /** `changeColor`: only the colour changes. */
    method ChangeColor(color: string)
      modifies this
      ensures currentColor == color && lineWidth == old(lineWidth)
      ensures drawing == old(drawing) && drawingActions == old(drawingActions) && currentPath == old(currentPath)
    {
      currentColor := color;
    }

    /** `changeWidth`: only the width changes, to the value passed. */
    method ChangeWidth(width: Value)
      modifies this
      ensures lineWidth == width && currentColor == old(currentColor)
      ensures drawing == old(drawing) && drawingActions == old(drawingActions) && currentPath == old(currentPath)
    {
      lineWidth := width;
    }
  }
}

=== FILE: drawing_canvas.dfy ===
/**
 * The `DrawingCanvas` component: a fabric canvas with a snapshot history,
 * undo and clear, and its own mouse handlers for the shape tools.
 */
module DrawingCanvas {
  import opened Values
  import opened Fabric
  import opened CanvasEvents

  /** The listener token under which `saveCanvasState` is registered. */
  const SaveHandler: nat := 1

  /** The three canvas events `saveCanvasState` listens to. */
  const ChangeEvents: seq<string> := ["object:added", "object:modified", "object:removed"]

  /** The listener table after `off(e, saveCanvasState)` for the three change events, in order. */
  function Detached(l: Listeners): Listeners {
    Off(Off(Off(l, ChangeEvents[0], SaveHandler), ChangeEvents[1], SaveHandler), ChangeEvents[2], SaveHandler)
  }

  /** The listener table after `on(e, saveCanvasState)` for the three change events, in order. */
  function Attached(l: Listeners): Listeners {
    On(On(On(l, ChangeEvents[0], SaveHandler), ChangeEvents[1], SaveHandler), ChangeEvents[2], SaveHandler)
  }

  /** `saveCanvasState` is registered for every change event. */
  predicate SaveRegistered(l: Listeners) {
    forall e :: e in ChangeEvents ==> SaveHandler in Handlers(l, e)
  }

  /** Events other than `e` keep their handlers under `off`/`on` of `e`. */
  lemma OtherEventsUntouched(l: Listeners, e: string, h: nat, other: string)
    requires other != e
    ensures Handlers(Off(l, e, h), other) == Handlers(l, other)
    ensures Handlers(On(l, e, h), other) == Handlers(l, other)
  {
  }

  /**
   * Detaching and reattaching `saveCanvasState` around a load leaves every
   * event with the same handlers, up to order, when it was registered.
   */
  lemma {:induction false} ReattachKeepsHandlers(l: Listeners, e: string)
    requires SaveRegistered(l)
    ensures multiset(Handlers(Attached(Detached(l)), e)) == multiset(Handlers(l, e))
  {
    var a, m, r := ChangeEvents[0], ChangeEvents[1], ChangeEvents[2];
    assert a in ChangeEvents && m in ChangeEvents && r in ChangeEvents;
    var l1 := Off(l, a, SaveHandler);
    var l2 := Off(l1, m, SaveHandler);
    var l3 := Off(l2, r, SaveHandler);
    var l4 := On(l3, a, SaveHandler);
    var l5 := On(l4, m, SaveHandler);
    var l6 := On(l5, r, SaveHandler);
    if e == a {
      assert Handlers(l6, e) == Handlers(l4, e) == Handlers(l3, e) + [SaveHandler];
      assert Handlers(l3, e) == Handlers(l1, e);
      OffThenOnKeepsHandlers(l, a, SaveHandler, e);
    } else if e == m {
      assert Handlers(l6, e) == Handlers(l5, e) == Handlers(l3, e) + [SaveHandler];
      assert Handlers(l3, e) == Handlers(l2, e) && Handlers(l1, e) == Handlers(l, e);
      OffThenOnKeepsHandlers(l1, m, SaveHandler, e);
    } else if e == r {
      assert Handlers(l6, e) == Handlers(l3, e) + [SaveHandler];
      assert Handlers(l2, e) == Handlers(l, e);
      OffThenOnKeepsHandlers(l2, r, SaveHandler, e);
    } else {
      OtherEventsUntouched(l, a, SaveHandler, e);
      OtherEventsUntouched(l1, m, SaveHandler, e);
      OtherEventsUntouched(l2, r, SaveHandler, e);
      OtherEventsUntouched(l3, a, SaveHandler, e);
      OtherEventsUntouched(l4, m, SaveHandler, e);
      OtherEventsUntouched(l5, r, SaveHandler, e);
    }
  }

  /**
   * While the load runs, an event where `saveCanvasState` was registered
   * once has it no more: the load's own `object:added` events save nothing.
   */
  lemma DetachedDuringLoad(l: Listeners, e: string)
    requires e in ChangeEvents && multiset(Handlers(l, e))[SaveHandler] == 1
    ensures SaveHandler !in Handlers(Detached(l), e)
  {
    var l1 := Off(l, ChangeEvents[0], SaveHandler);
    var l2 := Off(l1, ChangeEvents[1], SaveHandler);
    var l3 := Off(l2, ChangeEvents[2], SaveHandler);
    assert SaveHandler in multiset(Handlers(l, e));
    if e == ChangeEvents[0] {
      assert multiset(Handlers(l1, e))[SaveHandler] == 0;
      assert Handlers(l3, e) == Handlers(l1, e);
    } else if e == ChangeEvents[1] {
      assert multiset(Handlers(l2, e))[SaveHandler] == 0;
      assert Handlers(l3, e) == Handlers(l2, e);
    } else {
      assert multiset(Handlers(l3, e))[SaveHandler] == 0;
    }
  }

  /**
   * The component's state: the fabric canvas once mounted, the snapshot
   * history (opaque `JSON.stringify(canvas.toJSON())` strings), and the
   * drawing flag, active object and start point of its mouse handlers.
   */
  class Component {
    var fabricCanvas: Canvas?
    var history: seq<string>
    var isDrawing: bool
    var activeObject: FabricObject?
    var startPoint: Option<Point>

    constructor ()
      ensures fabricCanvas == null && history == [] && !isDrawing && activeObject == null && startPoint.None?
    {
      fabricCanvas, history, isDrawing, activeObject, startPoint := null, [], false, null, None;
    }

    /**
     * The mount effect: the new canvas is stored, and once the initial
     * timeout fires the history is exactly the one snapshot `initial` of
     * the fresh canvas.
     */
    method Mount(canvas: Canvas, initial: string)
      modifies this
      ensures fabricCanvas == canvas && history == [initial]
      ensures isDrawing == old(isDrawing) && activeObject == old(activeObject) && startPoint == old(startPoint)
    {
      fabricCanvas := canvas;
      history := [initial];
    }

    /** The tool effect registers `saveCanvasState` for the three change events. */
    method AttachSave()
      requires fabricCanvas != null
      modifies fabricCanvas
      ensures fabricCanvas.listeners == Attached(old(fabricCanvas.listeners))
      ensures fabricCanvas.objects == old(fabricCanvas.objects) && fabricCanvas.active == old(fabricCanvas.active)
      ensures fabricCanvas.background == old(fabricCanvas.background) && fabricCanvas.loads == old(fabricCanvas.loads)
    {
      fabricCanvas.listeners := Attached(fabricCanvas.listeners);
    }

    /**
     * `saveCanvasState`, with `tool` the tool it captured when it was
     * created and `snapshot` the serialised canvas. Without a canvas or
     * for the select tool nothing happens; otherwise the snapshot is
     * appended at the end.
     */
    method SaveCanvasState(tool: string, snapshot: string)
      modifies this
      ensures fabricCanvas == null || tool == "select" ==> history == old(history)
      ensures fabricCanvas != null && tool != "select" ==> history == old(history) + [snapshot]
      ensures fabricCanvas == old(fabricCanvas) && isDrawing == old(isDrawing)
      ensures activeObject == old(activeObject) && startPoint == old(startPoint)
    {
      if fabricCanvas != null {
        if tool == "select" {
          return;
        }
        history := history + [snapshot];
      }
    }

    /**
     * `undoCanvas`, with `decoded` what fabric makes of the last snapshot.
     * It is refused exactly when there is no canvas or no history. Otherwise
     * the change listeners are detached, the last snapshot is loaded, that
     * entry is popped, and the listeners are attached again.
     */
    method UndoCanvas(decoded: Decoded) returns (undone: bool)
      modifies this, fabricCanvas
      ensures undone <==> fabricCanvas != null && old(history) != []
      ensures !undone ==> unchanged(this) && (fabricCanvas == null || unchanged(fabricCanvas))
      ensures fabricCanvas == old(fabricCanvas) && isDrawing == old(isDrawing)
      ensures activeObject == old(activeObject) && startPoint == old(startPoint)
      ensures undone ==>
        && history == old(history)[..|old(history)| - 1]
        && fabricCanvas.loads == old(fabricCanvas.loads) + [Load(Str(old(history)[|old(history)| - 1]), Detached(old(fabricCanvas.listeners)))]
        && fabricCanvas.listeners == Attached(Detached(old(fabricCanvas.listeners)))
        && fabricCanvas.objects == decoded.objects && fabricCanvas.active == null
        && fabricCanvas.background == decoded.background
    {
      if fabricCanvas == null || |history| <= 0 {
        return false;
      }
      var prevState := history[|history| - 1];
      fabricCanvas.listeners := Detached(fabricCanvas.listeners);
      fabricCanvas.LoadFromJSON(Str(prevState), decoded);
      history := history[..|history| - 1];
      fabricCanvas.listeners := Attached(fabricCanvas.listeners);
      return true;
    }

    /**
     * `clearCanvasConfirm`, with `confirmed` the answer to the dialog.
     * Declined, or without a canvas, nothing changes. Confirmed, the canvas
     * is emptied, its background set to white, and the history emptied.
     */
    method ClearCanvasConfirm(confirmed: bool)
      modifies this, fabricCanvas
      ensures fabricCanvas == null || !confirmed ==> unchanged(this) && (fabricCanvas == null || unchanged(fabricCanvas))
      ensures fabricCanvas == old(fabricCanvas) && isDrawing == old(isDrawing)
      ensures activeObject == old(activeObject) && startPoint == old(startPoint)
      ensures fabricCanvas != null && confirmed ==>
        && fabricCanvas.objects == [] && fabricCanvas.active == null
        && fabricCanvas.background == Str("#ffffff") && history == []
        && fabricCanvas.listeners == old(fabricCanvas.listeners) && fabricCanvas.loads == old(fabricCanvas.loads)
    {
      if fabricCanvas == null || !confirmed {
        return;
      }
      fabricCanvas.Clear();
      fabricCanvas.background := Str("#ffffff");
      history := [];
    }

    /**
     * `handleMouseDown` with the current tool and stroke. With a canvas the
     * start point becomes the pointer; the rectangle, circle and line tools
     * add a new zero-size shape, without an id, and make it the canvas's
     * and the component's active object while drawing. The text tool calls
     * `new fabric.TextBox`, which fabric does not define, so it throws.
     */
    method HandleMouseDown(tool: string, strokeColor: Value, strokeWidth: Value, pointer: Point) returns (threw: bool)
      modifies this, fabricCanvas
      ensures fabricCanvas == null ==> !threw && unchanged(this)
      ensures fabricCanvas == old(fabricCanvas) && history == old(history)
      ensures fabricCanvas != null ==> startPoint == Some(pointer)
      ensures threw <==> fabricCanvas != null && tool == "text"
      ensures fabricCanvas != null && tool in {"rectangle", "circle", "line"} ==>
        && fabricCanvas.objects == old(fabricCanvas.objects) + [activeObject]
        && activeObject != null && fresh(activeObject) && fabricCanvas.active == activeObject
        && activeObject.View() == FromOptions(ToolKind(tool), StartOptions(tool, pointer, strokeColor, strokeWidth))
        && isDrawing
      ensures fabricCanvas != null && tool in {"rectangle", "circle", "line"} ==>
        && fabricCanvas.background == old(fabricCanvas.background)
        && fabricCanvas.listeners == old(fabricCanvas.listeners) && fabricCanvas.loads == old(fabricCanvas.loads)
      ensures fabricCanvas != null && tool !in {"rectangle", "circle", "line"} ==>
        unchanged(fabricCanvas) && activeObject == old(activeObject) && isDrawing == old(isDrawing)
    {
      if fabricCanvas == null {
        return false;
      }
      startPoint := Some(pointer);
      if tool in {"rectangle", "circle", "line"} {
        var shape := new FabricObject(ToolKind(tool), StartOptions(tool, pointer, strokeColor, strokeWidth));
        fabricCanvas.Add(shape);
        fabricCanvas.active := shape;
        activeObject := shape;
        isDrawing := true;
      }
      return tool == "text";
    }

    /**
     * `handleMouseMove` while drawing with a canvas, an active object and a
     * start point: with the rectangle tool and a `rect` it applies one drag
     * step; with the circle tool and a `circle` it sets the radius `radius`
     * (the root of the squared distance, computed by the caller) centred on
     * the start point; with the line tool and a `line` it moves the second
     * end point to the pointer. Nothing else changes.
     */
    method HandleMouseMove(tool: string, pointer: Point, radius: int)
      modifies activeObject
      ensures !isDrawing || fabricCanvas == null || activeObject == null || startPoint.None? ==>
        activeObject == null || unchanged(activeObject)
      ensures isDrawing && fabricCanvas != null && activeObject != null && startPoint.Some? ==>
        activeObject.View() ==
          var s := old(activeObject.View());
          var start := startPoint.value;
          if tool == "rectangle" && s.kind == "rect" then DragRect(s, start, pointer)
          else if tool == "circle" && s.kind == "circle" then
            s.(props := s.props["radius" := Num(radius)]["left" := Num(start.x - radius)]["top" := Num(start.y - radius)])
          else if tool == "line" && s.kind == "line" then
            s.(props := s.props["x2" := Num(pointer.x)]["y2" := Num(pointer.y)])
          else s
    {
      if !isDrawing || fabricCanvas == null || activeObject == null || startPoint.None? {
        return;
      }
      var start := startPoint.value;
      if tool == "rectangle" && activeObject.kind == "rect" {
        var width := Abs(pointer.x - start.x);
        var height := Abs(pointer.y - start.y);
        if pointer.x < start.x {
          activeObject.props := activeObject.props["left" := Num(pointer.x)];
        }
        if pointer.y < start.y {
          activeObject.props := activeObject.props["top" := Num(pointer.y)];
        }
        activeObject.props := activeObject.props["width" := Num(width)]["height" := Num(height)];
      } else if tool == "circle" && activeObject.kind == "circle" {
        activeObject.props := activeObject.props["radius" := Num(radius)]["left" := Num(start.x - radius)]["top" := Num(start.y - radius)];
      } else if tool == "line" && activeObject.kind == "line" {
        activeObject.props := activeObject.props["x2" := Num(pointer.x)]["y2" := Num(pointer.y)];
      }
    }

    /**
     * `handleMouseUp`: only while drawing with a canvas and an active object
     * does it stop drawing and drop the active object; otherwise nothing
     * changes.
     */
    method HandleMouseUp()
      modifies this
      ensures old(isDrawing) && fabricCanvas != null && old(activeObject) != null ==> !isDrawing && activeObject == null
      ensures !(old(isDrawing) && fabricCanvas != null && old(activeObject) != null) ==>
        isDrawing == old(isDrawing) && activeObject == old(activeObject)
      ensures fabricCanvas == old(fabricCanvas) && history == old(history) && startPoint == old(startPoint)
    {
      if isDrawing && fabricCanvas != null && activeObject != null {
        isDrawing := false;
        activeObject := null;
      }
    }
  }

  /**
   * A mouse-down with the rectangle tool followed by its first drag step
   * leaves a rectangle spanning exactly the start point and the pointer.
   * Later steps need not: see `DragBackKeepsLeft`.
   */
  lemma RectangleSpansDrag(start: Point, pointer: Point, strokeColor: Value, strokeWidth: Value)
    ensures Spans(DragRect(FromOptions("rect", StartOptions("rectangle", start, strokeColor, strokeWidth)), start, pointer).props, start, pointer)
  {
    var s := FromOptions("rect", StartOptions("rectangle", start, strokeColor, strokeWidth));
    DragSpans(s, start, pointer);
  }
}

=== FILE: fabric.dfy ===
/**
 * The part of the fabric.js drawing surface that the whiteboard's handlers
 * use: objects with an id, a property map and an `evented` flag, and a
 * canvas holding an ordered object list, the active object, a background
 * and the listener table.
 */
module Fabric {
  import opened Values

  /** The state of one fabric object, as a value. */
  datatype Shape = Shape(kind: string, id: Value, props: map<string, Value>, evented: Value)

  /** `id` and `evented` are kept beside the property map, never inside it. */
  predicate WellFormed(s: Shape) {
    "id" !in s.props && "evented" !in s.props
  }

  /** `obj.toObject(["id"])`: the serialisable properties together with the id. */
  function ToObject(s: Shape): map<string, Value> {
    s.props["id" := s.id]
  }

  /** `new fabric.X(options)`: the options become the object's fields; `evented` defaults to true. */
  function FromOptions(kind: string, options: map<string, Value>): (s: Shape)
    ensures WellFormed(s)
    ensures s.kind == kind && s.id == Get(options, "id")
    ensures forall k :: k in options && k != "id" && k != "evented" ==> k in s.props && s.props[k] == options[k]
    ensures forall k :: k in s.props ==> k in options
  {
    Shape(kind, Get(options, "id"), options - {"id", "evented"},
          if "evented" in options then options["evented"] else Bool(true))
  }

  /** `obj.set(p)`: every field present in `p` overwrites the object's own. */
  function SetProps(s: Shape, p: map<string, Value>): (r: Shape)
    ensures WellFormed(s) ==> WellFormed(r)
    ensures r.kind == s.kind
    ensures forall k :: k in p && k != "id" && k != "evented" ==> k in r.props && r.props[k] == p[k]
    ensures forall k :: k in s.props && k !in p ==> k in r.props && r.props[k] == s.props[k]
    ensures r.id == (if "id" in p then p["id"] else s.id)
    ensures r.evented == (if "evented" in p then p["evented"] else s.evented)
  {
    Shape(s.kind, if "id" in p then p["id"] else s.id, s.props + (p - {"id", "evented"}),
          if "evented" in p then p["evented"] else s.evented)
  }

  /** A received object keeps every serialised property and the id of the object it was serialised from. */
  lemma FromOptionsToObject(s: Shape)
    requires WellFormed(s)
    ensures FromOptions(s.kind, ToObject(s)) == s.(evented := Bool(true))
  {
    assert ToObject(s) - {"id", "evented"} == s.props;
  }

  class FabricObject {
    /** fabric's `type`: "rect", "circle", "line", "path", "activeSelection", ... */
    const kind: string
    var id: Value
    var props: map<string, Value>
    var evented: Value
    /** The members of an `activeSelection`; empty for every other object. */
    const members: seq<FabricObject>

    function View(): Shape
      reads this
    {
      Shape(kind, id, props, evented)
    }

    constructor (kind: string, options: map<string, Value>)
      ensures View() == FromOptions(kind, options) && members == []
    {
      var s := FromOptions(kind, options);
      this.kind, id, props, evented := kind, s.id, s.props, s.evented;
      members := [];
    }

    /** `obj.set(p)`. */
    method Set(p: map<string, Value>)
      modifies this
      ensures View() == SetProps(old(View()), p)
    {
      var r := SetProps(View(), p);
      id, props, evented := r.id, r.props, r.evented;
    }

    /** `new fabric.ActiveSelection(members)`. */
    constructor Group(members: seq<FabricObject>)
      ensures View() == Shape("activeSelection", Undefined, map[], Bool(true))
      ensures this.members == members
    {
      kind, id, props, evented := "activeSelection", Undefined, map[], Bool(true);
      this.members := members;
    }
  }

  /** The states of a list of objects, in list order. */
  function Views(objs: seq<FabricObject>): (r: seq<Shape>)
    reads objs
    ensures |r| == |objs|
    ensures forall k :: 0 <= k < |objs| ==> r[k] == objs[k].View()
  {
    seq(|objs|, k reads objs requires 0 <= k < |objs| => objs[k].View())
  }

  /** The listener table `canvas.__eventListeners`: handler tokens per event name. */
  type Listeners = map<string, seq<nat>>

  function Handlers(l: Listeners, event: string): seq<nat> {
    if event in l then l[event] else []
  }

  /** `canvas.on(event, h)` appends a registration. */
  function On(l: Listeners, event: string, h: nat): Listeners {
    l[event := Handlers(l, event) + [h]]
  }

  /** `canvas.off(event, h)` cancels the first registration of `h`, if any. */
  function Off(l: Listeners, event: string, h: nat): Listeners {
    l[event := RemoveFirst(Handlers(l, event), h)]
  }

  function RemoveFirst(s: seq<nat>, h: nat): (r: seq<nat>)
    ensures h in s ==> multiset(r) == multiset(s) - multiset{h}
    ensures h !in s ==> r == s
  {
    if s == [] then []
    else
      assert s == [s[0]] + s[1..];
      if s[0] == h then s[1..] else [s[0]] + RemoveFirst(s[1..], h)
  }

  /**
   * Cancelling a registration and making it again (`off` then `on`) leaves
   * the handlers of every event the same up to order.
   */
  lemma {:induction false} OffThenOnKeepsHandlers(l: Listeners, event: string, h: nat, e: string)
    requires h in Handlers(l, event)
    ensures multiset(Handlers(On(Off(l, event, h), event, h), e)) == multiset(Handlers(l, e))
  {
    if e == event {
      var s := Handlers(l, event);
      calc {
        multiset(Handlers(On(Off(l, event, h), event, h), e));
        multiset(RemoveFirst(s, h) + [h]);
        multiset(RemoveFirst(s, h)) + multiset{h};
        (multiset(s) - multiset{h}) + multiset{h};
        multiset(s);
      }
    }
  }

  /** A pointer position on the canvas. */
  datatype Point = Point(x: int, y: int)

  /** One call of `loadFromJSON`: the snapshot and the listener table in force while it ran. */
  datatype Load = Load(state: Value, listeners: Listeners)

  /** What fabric deserialises from a snapshot: its objects and its background. */
  datatype Decoded = Decoded(objects: seq<FabricObject>, background: Value)

  class Canvas {
    var objects: seq<FabricObject>
    var active: FabricObject?
    var background: Value
    var listeners: Listeners
    /** Every load so far, with the listeners that were attached during it. */
    ghost var loads: seq<Load>

    constructor ()
      ensures objects == [] && active == null && background == Str("#ffffff")
      ensures listeners == map[] && loads == []
    {
      objects, active, background, listeners := [], null, Str("#ffffff"), map[];
      loads := [];
    }

    /** `canvas.add(o)`: the object goes to the top of the z-order. */
    method Add(o: FabricObject)
      modifies this
      ensures objects == old(objects) + [o]
      ensures active == old(active) && background == old(background)
      ensures listeners == old(listeners) && loads == old(loads)
    {
      objects := objects + [o];
    }

    /** `canvas.clear()`: no objects, no active object, background reset to "". */
    method Clear()
      modifies this
      ensures objects == [] && active == null && background == Str("")
      ensures listeners == old(listeners) && loads == old(loads)
    {
      objects, active, background := [], null, Str("");
    }

    /** `canvas.loadFromJSON(state, done)`, taken as completing before `done` runs. */
    method LoadFromJSON(state: Value, decoded: Decoded)
      modifies this
      ensures objects == decoded.objects && active == null && background == decoded.background
      ensures listeners == old(listeners)
      ensures loads == old(loads) + [Load(state, old(listeners))]
    {
      objects, active, background := decoded.objects, null, decoded.background;
      loads := loads + [Load(state, listeners)];
    }
  }
}

=== FILE: relay.dfy ===
/**
 * The server's `SocketManager`: a relay that forwards four client events to
 * every other connected socket and answers a failed forward with an
 * `error` event to the sender alone.
 */
module Relay {
  import opened Values

  /** One emit by the server: the receiving socket, the event and its payload. */
  datatype Delivery = Delivery(to: nat, event: string, payload: Value)

  /** The events the relay listens to. */
  const RelayedEvents: set<string> := {"shape:draw", "canvas:undo", "canvas:clear", "selection:update"}

  /**
   * The payload the relay forwards for an incoming event, or `None` for an
   * event it has no handler for. Drawings and selections go on as they
   * came; undo and clear go on as `{ state: param || {} }`.
   */
  function Forwarded(event: string, param: Value): (r: Option<Value>)
    ensures r.Some? <==> event in RelayedEvents
    ensures event == "shape:draw" || event == "selection:update" ==> r == Some(param)
    ensures event == "canvas:undo" || event == "canvas:clear" ==>
      && r.Some? && r.value.Rec? && r.value.fields.Keys == {"state"}
      && Truthy(Member(r.value, "state"))
      && (Truthy(param) ==> Member(r.value, "state") == param)
      && (!Truthy(param) ==> Member(r.value, "state") == Rec(map[]))
  {
    if event == "shape:draw" || event == "selection:update" then Some(param)
    else if event == "canvas:undo" || event == "canvas:clear" then Some(Rec(map["state" := Or(param, Rec(map[]))]))
    else None
  }

  /** The message of the `error` event the sender gets when forwarding `event` fails. */
  function ErrorMessage(event: string): string
    requires event in RelayedEvents
  {
    if event == "shape:draw" then "Socket error while drawing."
    else if event == "selection:update" then "Socket error during selection update."
    else "Socket error while undoing."
  }

  /** `socket.broadcast.emit(event, payload)`: one delivery to each connection but the sender, in connection order. */
  function Broadcast(connections: seq<nat>, sender: nat, event: string, payload: Value): (r: seq<Delivery>)
    ensures forall d :: d in r ==> d.to != sender && d.to in connections && d.event == event && d.payload == payload
    ensures forall c :: c in connections && c != sender ==> Delivery(c, event, payload) in r
  {
    if connections == [] then []
    else
      var rest := Broadcast(connections[1..], sender, event, payload);
      assert forall c :: c in connections ==> c == connections[0] || c in connections[1..];
      if connections[0] == sender then rest else [Delivery(connections[0], event, payload)] + rest
  }

  /** The receivers of a broadcast, in order. */
  function Receivers(deliveries: seq<Delivery>): (r: seq<nat>)
    ensures |r| == |deliveries|
  {
    if deliveries == [] then [] else [deliveries[0].to] + Receivers(deliveries[1..])
  }

  /**
   * Who receives a broadcast depends only on the connections and the
   * sender: a `roomId` or anything else in the payload plays no part.
   */
  lemma {:induction false} ReceiversIgnorePayload(connections: seq<nat>, sender: nat, e1: string, p1: Value, e2: string, p2: Value)
    ensures Receivers(Broadcast(connections, sender, e1, p1)) == Receivers(Broadcast(connections, sender, e2, p2))
  {
    if connections != [] {
      ReceiversIgnorePayload(connections[1..], sender, e1, p1, e2, p2);
    }
  }

  /** With distinct connections that include the sender, every other connection receives exactly once. */
  lemma {:induction false} BroadcastCount(connections: seq<nat>, sender: nat, event: string, payload: Value)
    requires Distinct(connections)
    ensures sender in connections ==> |Broadcast(connections, sender, event, payload)| == |connections| - 1
    ensures sender !in connections ==> |Broadcast(connections, sender, event, payload)| == |connections|
  {
    if connections != [] {
      assert forall c :: c in connections[1..] ==> c != connections[0];
      BroadcastCount(connections[1..], sender, event, payload);
    }
  }

  /** The connections left when `id` disconnects, in their order. */
  function Without(connections: seq<nat>, id: nat): (r: seq<nat>)
    ensures forall c :: c in r <==> c in connections && c != id
    ensures |r| <= |connections|
  {
    if connections == [] then []
    else
      assert forall c :: c in connections ==> c == connections[0] || c in connections[1..];
      if connections[0] == id then Without(connections[1..], id) else [connections[0]] + Without(connections[1..], id)
  }

  /** No connection appears twice. */
  predicate Distinct(connections: seq<nat>)
  {
    forall i, j :: 0 <= i < j < |connections| ==> connections[i] != connections[j]
  }

  /** Removing a connection from distinct connections leaves them distinct. */
  lemma {:induction false} WithoutDistinct(connections: seq<nat>, id: nat)
    requires Distinct(connections)
    ensures Distinct(Without(connections, id))
  {
    if connections != [] {
      var rest := Without(connections[1..], id);
      assert Distinct(connections[1..]) by {
        forall i, j | 0 <= i < j < |connections| - 1 ensures connections[1..][i] != connections[1..][j] {
          assert connections[1..][i] == connections[i + 1] && connections[1..][j] == connections[j + 1];
        }
      }
      WithoutDistinct(connections[1..], id);
      if connections[0] != id {
        assert connections[0] !in connections[1..];
        assert connections[0] !in rest;
        var r := [connections[0]] + rest;
        forall i, j | 0 <= i < j < |r| ensures r[i] != r[j] {
          assert r[j] == rest[j - 1];
          if i == 0 { assert rest[j - 1] in rest; } else { assert r[i] == rest[i - 1]; }
        }
      }
    }
  }

  /** The relay: the open connections, and every emit it has made so far. */
  class Server {
    var connections: seq<nat>
    var outbox: seq<Delivery>

    constructor ()
      ensures connections == [] && outbox == []
    {
      connections, outbox := [], [];
    }

    /** A new socket connects; the transport gives every socket a fresh id. */
    method Connect(id: nat)
      requires id !in connections
      modifies this
      ensures connections == old(connections) + [id] && outbox == old(outbox)
      ensures Distinct(old(connections)) ==> Distinct(connections)
    {
      connections := connections + [id];
    }

    /** A socket disconnects: the transport drops it; the relay itself keeps no state and sends nothing. */
    method Disconnect(id: nat)
      modifies this
      ensures connections == Without(old(connections), id)
      ensures forall c :: c in connections <==> c in old(connections) && c != id
      ensures |connections| <= |old(connections)|
      ensures outbox == old(outbox)
      ensures Distinct(old(connections)) ==> Distinct(connections)
    {
      if Distinct(connections) {
        WithoutDistinct(connections, id);
      }
      connections := Without(connections, id);
    }

    /**
     * The sender emits `event` with `param`; `fails` says whether the
     * forwarding emit throws. An event without a handler is ignored. A
     * forward that goes through reaches every other connection; one that
     * fails reaches no one, and the sender alone gets an `error` event.
     * Connections never change.
     */
    method Receive(sender: nat, event: string, param: Value, fails: bool)
      modifies this
      ensures connections == old(connections)
      ensures event !in RelayedEvents ==> outbox == old(outbox)
      ensures event in RelayedEvents && !fails ==>
        outbox == old(outbox) + Broadcast(connections, sender, event, Forwarded(event, param).value)
      ensures event in RelayedEvents && fails ==>
        outbox == old(outbox) + [Delivery(sender, "error", Rec(map["message" := Str(ErrorMessage(event))]))]
    {
      var forwarded := Forwarded(event, param);
      if forwarded.None? {
        return;
      }
      if fails {
        outbox := outbox + [Delivery(sender, "error", Rec(map["message" := Str(ErrorMessage(event))]))];
      } else {
        outbox := outbox + Broadcast(connections, sender, event, forwarded.value);
      }
    }
  }
}

=== FILE: selection_order.dfy ===
/**
 * The order in which a selection's id list is compared and sent: the
 * default `Array.prototype.sort`, which compares the values' texts code
 * unit by code unit and keeps values with equal texts in their order.
 */
module SelectionOrder {
  import opened Values

  /** `a` sorts no later than `b`: a prefix comes first, otherwise the first differing unit decides. */
  predicate LexLe(a: string, b: string)
    decreases |a|
  {
    |a| == 0 || (|b| > 0 && (a[0] < b[0] || (a[0] == b[0] && LexLe(a[1..], b[1..]))))
  }

  lemma {:induction false} LexLeTotal(a: string, b: string)
    ensures LexLe(a, b) || LexLe(b, a)
    decreases |a|
  {
    if |a| > 0 && |b| > 0 && a[0] == b[0] {
      LexLeTotal(a[1..], b[1..]);
    }
  }

  lemma {:induction false} LexLeAntisymmetric(a: string, b: string)
    requires LexLe(a, b) && LexLe(b, a)
    ensures a == b
    decreases |a|
  {
    if |a| > 0 {
      LexLeAntisymmetric(a[1..], b[1..]);
      assert a == [a[0]] + a[1..] && b == [b[0]] + b[1..];
    }
  }

  lemma {:induction false} LexLeTransitive(a: string, b: string, c: string)
    requires LexLe(a, b) && LexLe(b, c)
    ensures LexLe(a, c)
    decreases |a|
  {
    if |a| > 0 && a[0] == b[0] && b[0] == c[0] {
      LexLeTransitive(a[1..], b[1..], c[1..]);
    }
  }

  lemma {:induction false} LexLeReflexive(a: string)
    ensures LexLe(a, a)
    decreases |a|
  {
    if |a| > 0 {
      LexLeReflexive(a[1..]);
    }
  }

  /** `a` sorts no later than `b` when their texts are compared. */
  predicate SortsBefore<T>(text: T -> string, a: T, b: T) {
    LexLe(text(a), text(b))
  }

  predicate Sorted<T>(text: T -> string, s: seq<T>) {
    forall i, j {:trigger SortsBefore(text, s[i], s[j])} :: 0 <= i < j < |s| ==> SortsBefore(text, s[i], s[j])
  }

  /** Putting an element that sorts no later than every element in front keeps a list sorted. */
  lemma SortedCons<T>(text: T -> string, x: T, s: seq<T>)
    requires Sorted(text, s)
    requires forall e :: e in multiset(s) ==> SortsBefore(text, x, e)
    ensures Sorted(text, [x] + s)
  {
    forall i, j | 0 <= i < j < |[x] + s|
      ensures SortsBefore(text, ([x] + s)[i], ([x] + s)[j])
    {
      if i == 0 {
        assert ([x] + s)[j] == s[j - 1] && s[j - 1] in multiset(s);
      }
    }
  }

  /** `x` goes in front of the first element it sorts no later than, so equal texts keep their order. */
  function Insert<T(==)>(text: T -> string, x: T, s: seq<T>): (r: seq<T>)
    requires Sorted(text, s)
    ensures Sorted(text, r)
    ensures multiset(r) == multiset(s) + multiset{x}
  {
    if s == [] then [x]
    else if SortsBefore(text, x, s[0]) then
      assert forall e :: e in multiset(s) ==> SortsBefore(text, x, e) by {
        forall e | e in multiset(s) ensures SortsBefore(text, x, e) {
          var k :| 0 <= k < |s| && s[k] == e;
          if k > 0 {
            assert SortsBefore(text, s[0], s[k]);
            LexLeTransitive(text(x), text(s[0]), text(e));
          }
        }
      }
      SortedCons(text, x, s);
      [x] + s
    else
      assert s == [s[0]] + s[1..];
      var rest := Insert(text, x, s[1..]);
      assert forall e :: e in multiset(rest) ==> SortsBefore(text, s[0], e) by {
        LexLeTotal(text(x), text(s[0]));
        forall e | e in multiset(rest) ensures SortsBefore(text, s[0], e) {
          if e != x {
            assert e in multiset(s[1..]);
            var k :| 0 <= k < |s[1..]| && s[1..][k] == e;
            assert s[k + 1] == e;
          }
        }
      }
      SortedCons(text, s[0], rest);
      [s[0]] + rest
  }

  /** A stable sort by text: sorted, and a permutation of `s`. */
  function Sort<T(==)>(text: T -> string, s: seq<T>): (r: seq<T>)
    ensures Sorted(text, r)
    ensures multiset(r) == multiset(s)
  {
    if s == [] then []
    else
      assert s == [s[0]] + s[1..];
      Insert(text, s[0], Sort(text, s[1..]))
  }

  /** Two non-empty sorted lists with the same elements start with the same element when no two elements share a text. */
  lemma SortedSameHead<T>(text: T -> string, a: seq<T>, b: seq<T>)
    requires Sorted(text, a) && Sorted(text, b) && a != [] && b != []
    requires forall x, y :: x in multiset(a) && y in multiset(a) && text(x) == text(y) ==> x == y
    requires multiset(a) == multiset(b)
    ensures a[0] == b[0]
  {
    assert a[0] in multiset(a) && a[0] in multiset(b);
    var k :| 0 <= k < |b| && b[k] == a[0];
    assert b[0] in multiset(a);
    var j :| 0 <= j < |a| && a[j] == b[0];
    if a[0] != b[0] {
      assert SortsBefore(text, b[0], b[k]) && SortsBefore(text, a[0], a[j]);
      LexLeAntisymmetric(text(a[0]), text(b[0]));
    }
  }

  /** The tail of a sorted list is sorted and holds the other elements. */
  lemma SortedTail<T>(text: T -> string, a: seq<T>)
    requires Sorted(text, a) && a != []
    ensures Sorted(text, a[1..])
    ensures multiset(a[1..]) == multiset(a) - multiset{a[0]}
    ensures forall x :: x in multiset(a[1..]) ==> x in multiset(a)
  {
    assert a == [a[0]] + a[1..];
  }

  /** Two sorted lists with the same elements are the same list when no two different elements share a text. */
  lemma {:induction false} SortedUnique<T>(text: T -> string, a: seq<T>, b: seq<T>)
    requires Sorted(text, a) && Sorted(text, b)
    requires forall x, y :: x in multiset(a) && y in multiset(a) && text(x) == text(y) ==> x == y
    requires multiset(a) == multiset(b)
    ensures a == b
  {
    if a == [] {
      assert |multiset(b)| == 0;
    } else {
      assert |b| == |multiset(b)| > 0;
      SortedSameHead(text, a, b);
      SortedTail(text, a);
      SortedTail(text, b);
      SortedUnique(text, a[1..], b[1..]);
      assert a == [a[0]] + a[1..] && b == [b[0]] + b[1..];
    }
  }

  /** A list whose elements all have the same text is already in sort order. */
  lemma {:induction false} EqualTextsKeepOrder<T>(text: T -> string, s: seq<T>)
    requires forall k :: 0 <= k < |s| ==> text(s[k]) == text(s[0])
    ensures Sort(text, s) == s
  {
    if s != [] {
      EqualTextsKeepOrder(text, s[1..]);
      if |s| > 1 {
        LexLeReflexive(text(s[0]));
        assert SortsBefore(text, s[0], s[1..][0]);
      }
      assert s == [s[0]] + s[1..];
    }
  }

  /** `[...ids].sort()` on an id list. */
  function SortIds(ids: seq<Value>): (r: seq<Value>)
    ensures Sorted(ToText, r) && multiset(r) == multiset(ids)
  {
    Sort(ToText, ids)
  }

  /** Every element of the list is a string. */
  predicate AllStrings(s: seq<Value>) {
    forall k :: 0 <= k < |s| ==> s[k].Str?
  }

  /**
   * The test `JSON.stringify(sortedNew) !== JSON.stringify(sortedCurrent)`,
   * with the JSON texts of two lists taken to differ exactly when the lists do.
   */
  predicate SelectionChanged(next: seq<Value>, current: seq<Value>) {
    SortIds(next) != SortIds(current)
  }

  /** Lists that do not hold the same ids always count as a change. */
  lemma DifferentIdsChangeSelection(next: seq<Value>, current: seq<Value>)
    requires multiset(next) != multiset(current)
    ensures SelectionChanged(next, current)
  {
  }

  /**
   * For string ids the test is exact: the selection counts as changed
   * exactly when the two lists do not hold the same ids, in whatever order.
   */
  lemma SelectionChangedIffDifferentIds(next: seq<Value>, current: seq<Value>)
    requires AllStrings(next)
    ensures SelectionChanged(next, current) <==> multiset(next) != multiset(current)
  {
    if multiset(next) == multiset(current) {
      forall x, y | x in multiset(SortIds(next)) && y in multiset(SortIds(next)) && ToText(x) == ToText(y)
        ensures x == y
      {
        var i :| 0 <= i < |next| && next[i] == x;
        var j :| 0 <= j < |next| && next[j] == y;
      }
      SortedUnique(ToText, SortIds(next), SortIds(current));
    }
  }

  /**
   * Every record has the text `[object Object]`, so a list of records
   * sorts to itself, whatever the records hold.
   */
  lemma RecordsKeepTheirOrder(ids: seq<Value>)
    requires forall k :: 0 <= k < |ids| ==> ids[k].Rec?
    ensures SortIds(ids) == ids
  {
    EqualTextsKeepOrder(ToText, ids);
  }
}

=== FILE: socket_manager.dfy ===
/**
 * The client's socket lifecycle: creating and replacing the connection held
 * in a ref, the cleanup it returns, which handler an incoming event
 * reaches, and the remote undo and clear loads that run with the canvas
 * listener table swapped out.
 */
module SocketManager {
  import opened Values
  import opened Fabric

  /** One socket.io emit: the event name and its payload. */
  datatype Message = Message(event: string, payload: Value)

  /** A value passed where a handler is expected: a function, or anything else. */
  datatype Handler = Function(name: string) | NotFunction(value: Value)

  /** `h && typeof h === "function"` */
  predicate Callable(h: Handler) {
    h.Function?
  }

  /** What `initializeSocket` wired the socket's incoming events to. */
  datatype Bindings = Bindings(drawHandler: Handler, modifyHandler: Handler, canvas: Canvas?, selectionHandler: Handler)

  class Socket {
    var connected: bool
    /** Every message emitted on this socket, in order. */
    var sent: seq<Message>
    var bindings: Option<Bindings>

    constructor ()
      ensures connected && sent == [] && bindings == None
    {
      connected, sent, bindings := true, [], None;
    }

    method Emit(m: Message)
      modifies this
      ensures sent == old(sent) + [m]
      ensures connected == old(connected) && bindings == old(bindings)
    {
      sent := sent + [m];
    }

    method Disconnect()
      modifies this
      ensures !connected && sent == old(sent) && bindings == old(bindings)
    {
      connected := false;
    }
  }

  /** A React ref holding the current socket, `socketRef.current`. */
  class SocketRef {
    var current: Socket?

    constructor ()
      ensures current == null
    {
      current := null;
    }
  }

  /** The function `initializeSocket` returns for its caller to run on cleanup. */
  datatype Cleanup = NoCleanup | DisconnectRef(ref: SocketRef)

  /**
   * `initializeSocket(socketRef, isEnabled, drawHandler, modifyHandler, canvas,
   * selectionUpdateHandler)`. Disabled: nothing happens and the cleanup is a
   * no-op. Enabled: a socket already in the ref is disconnected and the ref
   * cleared, then a new connected socket is stored with its handlers bound.
   */
  method InitializeSocket(ref: SocketRef, enabled: bool, drawHandler: Handler, modifyHandler: Handler,
                          canvas: Canvas?, selectionHandler: Handler) returns (cleanup: Cleanup)
    modifies ref, ref.current
    ensures !enabled ==> cleanup == NoCleanup && ref.current == old(ref.current)
    ensures !enabled && old(ref.current) != null ==> unchanged(old(ref.current))
    ensures enabled ==> cleanup == DisconnectRef(ref)
    ensures enabled ==> ref.current != null && fresh(ref.current) && ref.current.connected && ref.current.sent == []
    ensures enabled ==> ref.current.bindings == Some(Bindings(drawHandler, modifyHandler, canvas, selectionHandler))
    ensures enabled && old(ref.current) != null ==>
      !old(ref.current).connected && old(ref.current).sent == old(ref.current.sent)
  {
    if !enabled {
      return NoCleanup;
    }
    if ref.current != null {
      ref.current.Disconnect();
      ref.current := null;
    }
    var socket := new Socket();
    ref.current := socket;
    socket.bindings := Some(Bindings(drawHandler, modifyHandler, canvas, selectionHandler));
    cleanup := DisconnectRef(ref);
  }

  /** Running a cleanup: the ref's socket, if any, is disconnected and the ref cleared. */
  method RunCleanup(cleanup: Cleanup)
    modifies if cleanup.DisconnectRef? then {cleanup.ref} else {}
    modifies if cleanup.DisconnectRef? && cleanup.ref.current != null then {cleanup.ref.current} else {}
    ensures cleanup.DisconnectRef? ==> cleanup.ref.current == null
    ensures cleanup.DisconnectRef? && old(cleanup.ref.current) != null ==>
      !old(cleanup.ref.current).connected && old(cleanup.ref.current).sent == old(cleanup.ref.current.sent)
  {
    if cleanup.DisconnectRef? && cleanup.ref.current != null {
      cleanup.ref.current.Disconnect();
      cleanup.ref.current := null;
    }
  }

  /**
   * The handler an incoming `shape:draw`, `shape:modify` or `selection:update`
   * reaches: the bound one, and only when it is a function.
   */
  function Route(b: Bindings, event: string): (h: Option<Handler>)
    ensures h.Some? ==> Callable(h.value)
    ensures h.Some? <==>
      (event == "shape:draw" && Callable(b.drawHandler)) ||
      (event == "shape:modify" && Callable(b.modifyHandler)) ||
      (event == "selection:update" && Callable(b.selectionHandler))
    ensures event == "shape:draw" && h.Some? ==> h.value == b.drawHandler
    ensures event == "shape:modify" && h.Some? ==> h.value == b.modifyHandler
    ensures event == "selection:update" && h.Some? ==> h.value == b.selectionHandler
  {
    match event
    case "shape:draw" => if Callable(b.drawHandler) then Some(b.drawHandler) else None
    case "shape:modify" => if Callable(b.modifyHandler) then Some(b.modifyHandler) else None
    case "selection:update" => if Callable(b.selectionHandler) then Some(b.selectionHandler) else None
    case _ => None
  }

  /**
   * Incoming `canvas:undo`: with a canvas and a truthy `data.state`, the
   * listener table is saved, emptied for the load and then restored.
   */
  method OnCanvasUndo(canvas: Canvas?, data: Value, decoded: Decoded)
    modifies canvas
    ensures canvas == null || !Truthy(Member(data, "state")) ==> canvas == null || unchanged(canvas)
    ensures canvas != null && Truthy(Member(data, "state")) ==>
      && canvas.loads == old(canvas.loads) + [Load(Member(data, "state"), map[])]
      && canvas.listeners == old(canvas.listeners)
      && canvas.objects == decoded.objects && canvas.active == null
      && canvas.background == decoded.background
  {
    if canvas != null && Truthy(Member(data, "state")) {
      var saved := canvas.listeners;
      canvas.listeners := map[];
      canvas.LoadFromJSON(Member(data, "state"), decoded);
      canvas.listeners := saved;
    }
  }

  /**
   * Incoming `canvas:clear`: with a canvas, the listener table is saved and
   * emptied, the canvas cleared and its background set to white; a truthy
   * `data.state` is then loaded; the saved table is restored either way.
   */
  method OnCanvasClear(canvas: Canvas?, data: Value, decoded: Decoded)
    modifies canvas
    ensures canvas != null ==> canvas.listeners == old(canvas.listeners)
    ensures canvas != null && !Truthy(Member(data, "state")) ==>
      && canvas.objects == [] && canvas.active == null
      && canvas.background == Str("#ffffff")
      && canvas.loads == old(canvas.loads)
    ensures canvas != null && Truthy(Member(data, "state")) ==>
      && canvas.loads == old(canvas.loads) + [Load(Member(data, "state"), map[])]
      && canvas.objects == decoded.objects && canvas.active == null
      && canvas.background == decoded.background
  {
    if canvas != null {
      var saved := canvas.listeners;
      canvas.listeners := map[];
      canvas.Clear();
      canvas.background := Str("#ffffff");
      if Truthy(Member(data, "state")) {
        canvas.LoadFromJSON(Member(data, "state"), decoded);
      }
      canvas.listeners := saved;
    }
  }
}

=== FILE: values.dfy ===
/** JavaScript values as they travel through fabric.js properties and socket payloads. */
module Values {

  datatype Option<T> = None | Some(value: T)

  /**
   * A JSON-shaped JavaScript value. Numbers are integers here: the
   * floating-point coordinates of the drawing surface are not modelled.
   * Arrays and records are heap objects in JavaScript; see `StrictEq`.
   */
  datatype Value =
    | Undefined
    | Null
    | Bool(b: bool)
    | Num(n: int)
    | Str(s: string)
    | Arr(items: seq<Value>)
    | Rec(fields: map<string, Value>)

  /** JavaScript truthiness, `!!v`. */
  predicate Truthy(v: Value) {
    match v
    case Undefined => false
    case Null => false
    case Bool(b) => b
    case Num(n) => n != 0
    case Str(s) => s != ""
    case Arr(_) => true
    case Rec(_) => true
  }

  /** `a || b` on values. */
  function Or(a: Value, b: Value): Value {
    if Truthy(a) then a else b
  }

  /** Property read `v.key`: only records carry own properties here. */
  function Member(v: Value, key: string): Value {
    if v.Rec? && key in v.fields then v.fields[key] else Undefined
  }

  /** The fields of an object spread `{...v}`; a non-record spreads to `{}` here. */
  function Fields(v: Value): map<string, Value> {
    if v.Rec? then v.fields else map[]
  }

  /** `m[key]` on a property map, `undefined` when absent. */
  function Get(m: map<string, Value>, key: string): Value {
    if key in m then m[key] else Undefined
  }

  /**
   * `a === b` between a value held locally and one that arrived over the
   * network: arrays and records compare by reference, and a freshly
   * deserialised array or record is never the same object as a local one.
   */
  predicate StrictEq(a: Value, b: Value) {
    a == b && !a.Arr? && !a.Rec?
  }

  /** `list.includes(v)` for a list that arrived over the network. */
  predicate Includes(list: seq<Value>, v: Value) {
    exists k :: 0 <= k < |list| && StrictEq(list[k], v)
  }

  /** The decimal digits of a natural number, most significant first. */
  function NatDigits(n: nat): (r: string)
    ensures |r| > 0 && forall k :: 0 <= k < |r| ==> '0' <= r[k] <= '9'
    decreases n
  {
    if n < 10 then [(n + 48) as char] else NatDigits(n / 10) + [(n % 10 + 48) as char]
  }

  /** `String(n)` for an integer. */
  function DecimalString(n: int): string {
    if n < 0 then "-" + NatDigits(-n) else NatDigits(n)
  }

  /** The elements of `parts` separated by commas. */
  function Join(parts: seq<string>): string {
    if |parts| == 0 then "" else if |parts| == 1 then parts[0] else Join(parts[..|parts| - 1]) + "," + parts[|parts| - 1]
  }

  /**
   * `String(v)`, the text the default array sort compares: an array joins
   * its elements with commas (`null` and `undefined` become empty), every
   * record reads `[object Object]`.
   */
  function ToText(v: Value): string
    decreases v
  {
    match v
    case Undefined => "undefined"
    case Null => "null"
    case Bool(b) => if b then "true" else "false"
    case Num(n) => DecimalString(n)
    case Str(s) => s
    case Arr(items) =>
      Join(seq(|items|, k requires 0 <= k < |items| =>
        if items[k].Undefined? || items[k].Null? then "" else ToText(items[k])))
    case Rec(_) => "[object Object]"
  }
}

=== FILE: whiteboard.dfy ===
/**
 * The stand-alone `WhiteBoard` component (`DrawingBoard.jsx` under `src/`):
 * freehand strokes with a current style, a list of finished strokes that
 * undo pops and repaints, and the style controls.
 */
module Whiteboard {
  import opened Values
  import opened Fabric

  /** `{ color, lineWidth }`; a width that `parseInt` could not read is `NaN`, here `None`. */
  datatype Style = Style(color: string, lineWidth: Option<int>)

  /** A finished stroke: `{ path, style }`. */
  datatype Action = Action(path: seq<Point>, style: Style)

  /** The characters `parseInt` skips at the start: white space and line terminators. */
  predicate IsSpace(c: char) {
    var n := c as int;
    n == 0x09 || n == 0x0A || n == 0x0B || n == 0x0C || n == 0x0D || n == 0x20 || n == 0xA0 ||
    n == 0x1680 || (0x2000 <= n <= 0x200A) || n == 0x2028 || n == 0x2029 || n == 0x202F ||
    n == 0x205F || n == 0x3000 || n == 0xFEFF
  }

  /** The text without its leading white space. */
  function TrimStart(s: string): (r: string)
    ensures |r| <= |s|
    ensures r == [] || !IsSpace(r[0])
  {
    if s != [] && IsSpace(s[0]) then TrimStart(s[1..]) else s
  }

  /** The value of `c` as a digit in `radix` (10 or 16), if it is one. */
  function DigitValue(c: char, radix: nat): (r: Option<nat>)
    ensures r.Some? ==> r.value < radix
  {
    if '0' <= c <= '9' && (c as int) - ('0' as int) < radix then Some((c as int) - ('0' as int))
    else if radix == 16 && 'a' <= c <= 'f' then Some((c as int) - ('a' as int) + 10)
    else if radix == 16 && 'A' <= c <= 'F' then Some((c as int) - ('A' as int) + 10)
    else None
  }

  /** The longest prefix of `s` made of digits in `radix`. */
  function DigitPrefix(s: string, radix: nat): (r: string)
    ensures |r| <= |s| && forall k :: 0 <= k < |r| ==> r[k] == s[k] && DigitValue(r[k], radix).Some?
    ensures |r| < |s| ==> DigitValue(s[|r|], radix).None?
  {
    if s != [] && DigitValue(s[0], radix).Some? then [s[0]] + DigitPrefix(s[1..], radix) else []
  }

  /** The number a string of digits in `radix` denotes, most significant first. */
  function DigitsValue(digits: string, radix: nat): nat
    requires forall k :: 0 <= k < |digits| ==> DigitValue(digits[k], radix).Some?
  {
    if digits == [] then 0
    else DigitsValue(digits[..|digits| - 1], radix) * radix + DigitValue(digits[|digits| - 1], radix).value
  }

  /**
   * `parseInt(s)` with no radix: leading white space is skipped, one `+`
   * or `-` sign is read, a `0x` or `0X` prefix selects base 16, and the
   * longest run of digits that follows is the magnitude; no digits is
   * `NaN`. Whatever follows the digits is ignored.
   */
  function ParseInt(s: string): Option<int> {
    var t := TrimStart(s);
    var unsigned := if t != [] && (t[0] == '-' || t[0] == '+') then t[1..] else t;
    match Magnitude(unsigned)
    case None => None
    case Some(m) => Some(if t != [] && t[0] == '-' then -(m as int) else m)
  }

  /** The unsigned part of `parseInt`: base 16 after `0x` or `0X`, else base 10; `None` without digits. */
  function Magnitude(u: string): Option<nat> {
    var hex := |u| >= 2 && u[0] == '0' && (u[1] == 'x' || u[1] == 'X');
    var radix := if hex then 16 else 10;
    var digits := DigitPrefix(if hex then u[2..] else u, radix);
    if digits == [] then None else Some(DigitsValue(digits, radix))
  }

  /** The decimal digits of a number are digits, and only `0` itself starts with `0`. */
  lemma {:induction false} NatDigitsShape(n: nat)
    ensures forall k :: 0 <= k < |NatDigits(n)| ==> DigitValue(NatDigits(n)[k], 10).Some?
    ensures NatDigits(n)[0] == '0' ==> n == 0
    decreases n
  {
    if n >= 10 {
      NatDigitsShape(n / 10);
      assert NatDigits(n)[0] == NatDigits(n / 10)[0];
    }
  }

  /** The decimal digits of a number denote that number. */
  lemma {:induction false} NatDigitsValue(n: nat)
    ensures forall k :: 0 <= k < |NatDigits(n)| ==> DigitValue(NatDigits(n)[k], 10).Some?
    ensures DigitsValue(NatDigits(n), 10) == n
    decreases n
  {
    NatDigitsShape(n);
    if n >= 10 {
      NatDigitsValue(n / 10);
      var d := NatDigits(n);
      assert d[..|d| - 1] == NatDigits(n / 10);
    }
  }

  /** A run of decimal digits is its own digit prefix. */
  lemma {:induction false} DigitPrefixOfDigits(s: string, radix: nat)
    requires forall k :: 0 <= k < |s| ==> DigitValue(s[k], radix).Some?
    ensures DigitPrefix(s, radix) == s
  {
    if s != [] {
      DigitPrefixOfDigits(s[1..], radix);
    }
  }

  /** Leading white space makes no difference to `parseInt`. */
  lemma ParseSkipsLeadingSpace(s: string)
    requires s != [] && IsSpace(s[0])
    ensures ParseInt(s) == ParseInt(s[1..])
  {
  }

  /** A text that does not start with white space is its own trimmed text. */
  lemma TrimStartNoSpace(s: string)
    requires s == [] || !IsSpace(s[0])
    ensures TrimStart(s) == s
  {
  }

  /** Decimal digits, leading zeros included, have their value as magnitude: a digit after `0` is never `x`. */
  lemma MagnitudeOfDigits(d: string)
    requires d != [] && forall k :: 0 <= k < |d| ==> DigitValue(d[k], 10).Some?
    ensures Magnitude(d) == Some(DigitsValue(d, 10))
  {
    DigitPrefixOfDigits(d, 10);
    if |d| >= 2 {
      assert '0' <= d[1] <= '9' by { assert DigitValue(d[1], 10).Some?; }
    }
    assert !(|d| >= 2 && d[0] == '0' && (d[1] == 'x' || d[1] == 'X'));
  }

  /** A text that starts with a digit has no white space or sign to skip: it reads as its magnitude. */
  lemma ParseUnsigned(s: string)
    requires s != [] && '0' <= s[0] <= '9'
    ensures Magnitude(s).None? ==> ParseInt(s).None?
    ensures Magnitude(s).Some? ==> ParseInt(s) == Some(Magnitude(s).value as int)
  {
    TrimStartNoSpace(s);
  }

  /** Plain decimal digits, leading zeros included, read back as their value. */
  lemma ParseDigits(d: string)
    requires d != [] && forall k :: 0 <= k < |d| ==> DigitValue(d[k], 10).Some?
    ensures ParseInt(d) == Some(DigitsValue(d, 10))
  {
    assert '0' <= d[0] <= '9' by { assert DigitValue(d[0], 10).Some?; }
    MagnitudeOfDigits(d);
    ParseUnsigned(d);
  }

  /** The same digits after a minus sign read back as the negated value. */
  lemma ParseNegativeDigits(s: string)
    requires |s| >= 2 && s[0] == '-'
    requires forall k :: 1 <= k < |s| ==> DigitValue(s[k], 10).Some?
    ensures forall k :: 0 <= k < |s[1..]| ==> DigitValue(s[1..][k], 10).Some?
    ensures ParseInt(s) == Some(-(DigitsValue(s[1..], 10) as int))
  {
    var d := s[1..];
    assert forall k :: 0 <= k < |d| ==> d[k] == s[k + 1];
    MagnitudeOfDigits(d);
    TrimStartNoSpace(s);
  }

  /** `parseInt(String(n))` is `n` for every integer: a width written out in decimal reads back unchanged. */
  lemma ParseDecimalString(n: int)
    ensures ParseInt(DecimalString(n)) == Some(n)
  {
    var m: nat := if n < 0 then -n else n;
    NatDigitsShape(m);
    NatDigitsValue(m);
    if n < 0 {
      var s := DecimalString(n);
      assert s[1..] == NatDigits(m);
      ParseNegativeDigits(s);
    } else {
      ParseDigits(NatDigits(m));
    }
  }

  /** The repaint's stroke list: strokes up to the first one without points, which would throw. */
  function Repainted(actions: seq<Action>): seq<Action> {
    if actions == [] || |actions[0].path| == 0 then [] else [actions[0]] + Repainted(actions[1..])
  }

  /** A front of strokes that all have points is repainted in full before the rest. */
  lemma {:induction false} RepaintedSplit(actions: seq<Action>, i: nat)
    requires i <= |actions| && forall k :: 0 <= k < i ==> |actions[k].path| > 0
    ensures Repainted(actions) == actions[..i] + Repainted(actions[i..])
  {
    if i > 0 {
      RepaintedSplit(actions[1..], i - 1);
      assert actions[1..][..i - 1] == actions[1..i];
      assert actions[1..][i - 1..] == actions[i..];
      assert actions[..i] == [actions[0]] + actions[1..i];
    }
  }

  /** Every stored stroke has at least one point. */
  predicate NonEmptyPaths(actions: seq<Action>) {
    forall k :: 0 <= k < |actions| ==> |actions[k].path| > 0
  }

  /** When every stroke has points, the repaint covers them all, in order. */
  lemma {:induction false} RepaintedAll(actions: seq<Action>)
    requires NonEmptyPaths(actions)
    ensures Repainted(actions) == actions
  {
    if actions != [] {
      RepaintedAll(actions[1..]);
    }
  }

  class Board {
    /** Whether the 2D context has been set up (`context` is non-null). */
    const hasContext: bool
    var drawing: bool
    var currentColor: string
    /** The width as last passed to `changeWidth`, kept for the width control. */
    var lineWidth: Value
    var currentStyle: Style
    var drawingActions: seq<Action>
    var currentPath: seq<Point>
    /** The strokes repainted on the canvas since it was last wiped, in painting order. */
    var painted: seq<Action>

    /** The initial state: black, width 3, nothing drawn. */
    constructor (hasContext: bool)
      ensures this.hasContext == hasContext && !drawing
      ensures currentColor == "black" && lineWidth == Num(3) && currentStyle == Style("black", Some(3))
      ensures drawingActions == [] && currentPath == [] && painted == []
    {
      this.hasContext := hasContext;
      drawing, currentColor, lineWidth, currentStyle := false, "black", Num(3), Style("black", Some(3));
      drawingActions, currentPath, painted := [], [], [];
    }

    /** `startDrawing`: drawing starts only when there is a context. */
    method StartDrawing()
      modifies this
      ensures currentColor == old(currentColor) && lineWidth == old(lineWidth)
      ensures drawing == (old(drawing) || hasContext)
      ensures currentStyle == old(currentStyle) && painted == old(painted)
      ensures drawingActions == old(drawingActions) && currentPath == old(currentPath)
    {
      if hasContext {
        drawing := true;
      }
    }

    /** `draw` at point `p`: while drawing with a context the point is appended to the current path. */
    method Draw(p: Point)
      modifies this
      ensures currentColor == old(currentColor) && lineWidth == old(lineWidth)
      ensures old(drawing) && hasContext ==> currentPath == old(currentPath) + [p]
      ensures !(old(drawing) && hasContext) ==> currentPath == old(currentPath)
      ensures drawing == old(drawing) && currentStyle == old(currentStyle)
      ensures drawingActions == old(drawingActions) && painted == old(painted)
    {
      if drawing && hasContext {
        currentPath := currentPath + [p];
      }
    }

    /**
     * `endDrawing`: drawing stops and the path is reset; a non-empty path
     * is first stored as a stroke with the current style.
     */
    method EndDrawing()
      modifies this
      ensures currentColor == old(currentColor) && lineWidth == old(lineWidth)
      ensures !drawing && currentPath == []
      ensures |old(currentPath)| > 0 ==> drawingActions == old(drawingActions) + [Action(old(currentPath), currentStyle)]
      ensures |old(currentPath)| == 0 ==> drawingActions == old(drawingActions)
      ensures NonEmptyPaths(old(drawingActions)) ==> NonEmptyPaths(drawingActions)
      ensures currentStyle == old(currentStyle) && painted == old(painted)
    {
      drawing := false;
      if |currentPath| > 0 {
        drawingActions := drawingActions + [Action(currentPath, currentStyle)];
      }
      currentPath := [];
    }

    /**
     * `changeColor`: the colour changes in both the colour state and the
     * style; the style's width is kept.
     */
    method ChangeColor(color: string)
      modifies this
      ensures currentColor == color && currentStyle == Style(color, old(currentStyle.lineWidth))
      ensures lineWidth == old(lineWidth) && drawing == old(drawing)
      ensures drawingActions == old(drawingActions) && currentPath == old(currentPath) && painted == old(painted)
    {
      currentColor := color;
      currentStyle := currentStyle.(color := color);
    }

    /**
     * `changeWidth` with the control's text `width`: the width state keeps
     * the text, the style's width becomes `parseInt(width)`, the style's
     * colour is kept.
     */
    method ChangeWidth(width: string)
      modifies this
      ensures lineWidth == Str(width) && currentStyle == Style(old(currentStyle.color), ParseInt(width))
      ensures currentColor == old(currentColor) && drawing == old(drawing)
      ensures drawingActions == old(drawingActions) && currentPath == old(currentPath) && painted == old(painted)
    {
      lineWidth := Str(width);
      currentStyle := currentStyle.(lineWidth := ParseInt(width));
    }

    /**
     * `undoDrawing`: with no strokes nothing happens. Otherwise the last
     * stroke is popped in place, the canvas wiped, and the remaining
     * strokes repainted in their original order; a stroke without points
     * would throw at its first point, ending the repaint there.
     */
    method UndoDrawing() returns (threw: bool)
      modifies this
      ensures currentColor == old(currentColor) && lineWidth == old(lineWidth)
      ensures old(drawingActions) == [] ==> !threw && unchanged(this)
      ensures old(drawingActions) != [] ==>
        && drawingActions == old(drawingActions)[..|old(drawingActions)| - 1]
        && painted == Repainted(drawingActions)
      ensures threw <==> old(drawingActions) != [] && Repainted(drawingActions) != drawingActions
      ensures NonEmptyPaths(old(drawingActions)) ==> NonEmptyPaths(drawingActions) && !threw
      ensures drawing == old(drawing) && currentPath == old(currentPath)
      ensures currentStyle == old(currentStyle)
    {
      threw := false;
      if |drawingActions| == 0 {
        return;
      }
      drawingActions := drawingActions[..|drawingActions| - 1];
      var remaining := drawingActions;
      var repainted: seq<Action> := [];
      var i := 0;
      while i < |remaining|
        invariant 0 <= i <= |remaining|
        invariant repainted == remaining[..i]
        invariant forall k :: 0 <= k < i ==> |remaining[k].path| > 0
      {
        var action := remaining[i];
        if |action.path| == 0 {
          RepaintedSplit(remaining, i);
          painted := repainted;
          return true;
        }
        assert remaining[..i + 1] == remaining[..i] + [action];
        repainted := repainted + [action];
        i := i + 1;
      }
      RepaintedSplit(remaining, i);
      painted := repainted;
    }

    /** `clearDrawing`: no strokes, no current path, and a wiped canvas. */
    method ClearDrawing()
      modifies this
      ensures currentColor == old(currentColor) && lineWidth == old(lineWidth)
      ensures drawingActions == [] && currentPath == [] && painted == []
      ensures drawing == old(drawing) && currentStyle == old(currentStyle)
    {
      drawingActions, currentPath, painted := [], [], [];
    }
  }
}
